=== FILE: README.md ===
# Oracle: search, summarise, rank, answer

Oracle is a small Streamlit application. The user types a question. The app
searches the web for it and scrapes each result page down to its visible
text. A chat model summarises every page, and summaries that are unusable
become the sentinel `"IRRELEVANT"`. The rest are scored by their length and
sorted, best first. The best three are joined into a context, and a second
chat model answers the question from that context. The answering step uses
a pool of three API keys and moves to the next key after a rate-limit error.

This project models the decision logic of `oracle_main.py` as pure Dafny
functions and proves what that logic guarantees. Every external call becomes
an input value:

- a search outcome (`Scrape.SearchOutcome`), with what fetching each page
  produced (`Scrape.PageFetch`);
- one summariser reply per website (`Summary.ChatReply`);
- the outcome of every answering attempt (`Synthesis.Attempt`).

The modules follow the program:

- `PyStr`: the Python `str` operations the code relies on. These are
  `isspace`, `strip`, `lower`, `in`, `split`, `splitlines` and `join`, with
  lemmas about what each keeps and what each removes.
- `Summary`: `clean_summary` and the guard at the end of `generate_summary`.
- `Scrape`: the text normalisation of `scrape_website`, its error handling,
  and `get_relevant_websites`.
- `Ranking`: the filter, the score, the stable descending sort, the top
  three and the joined context in `main`.
- `KeyPool`: the key list and `switch_groq_api_key`.
- `Synthesis`: the retry loop of `generate_llm_response`.
- `Oracle`: the search handler of `main`, composed from the parts above.
- `Wrappers`: `Option`.

`"Here is a summary .*?:"` is modelled by hand. `PreambleEndsAt` states
what the pattern matches, and `PreambleEnd` finds it. Letters are folded to
lower case in ASCII only. `.` does not match a newline, and the pattern is
anchored at the start.

## Model

| member | source | states |
|---|---|---|
| PyStr.Strip | oracle_main.py:32 | `str.strip()`: the result has no whitespace at either end, and a string already without such whitespace is unchanged |
| PyStr.StripVisible | oracle_main.py:32 | stripping removes only whitespace: the non-whitespace characters stay the same, in the same order |
| PyStr.StripSlice | oracle_main.py:32 | the stripped string is one contiguous slice of the input with only whitespace around it |
| PyStr.StripPastSpace | oracle_main.py:32 | whitespace in front of a string does not change what stripping gives |
| PyStr.Lower | oracle_main.py:95 | `str.lower()` on ASCII: same length, no upper-case ASCII letter left, every other character unchanged, and each upper-case letter replaced by its lower-case one |
| PyStr.Contains | oracle_main.py:95 | the `in` operator on strings: true exactly when the needle occurs at some index of the string |
| PyStr.Join | oracle_main.py:51 | `sep.join(parts)`: empty for no parts, and otherwise starting with the first part verbatim |
| PyStr.SplitLines | oracle_main.py:47 | `splitlines()`: the lines, each followed by its line boundary (`\r\n` or a single break character, none after a last line that has no break), spell the text again; no line contains a break, a `\r\n` pair is never split, a final break makes no empty extra line, and the visible characters are kept in order |
| PyStr.SplitDoubleSpace | oracle_main.py:49 | `split("  ")`: no piece contains a double space, pieces of a line stay free of line breaks, visible text is kept, and joining the pieces with `"  "` gives back the line; each cut is at the leftmost double space, so no piece but the last ends in a space |
| PyStr.SplitJoin | oracle_main.py:51 | splitting on `c` undoes joining with `c` when no part contains `c` |
| PyStr.JoinSplit | oracle_main.py:51 | joining with `c` undoes splitting on `c` |
| PyStr.JoinNonBlank | oracle_main.py:51 | joining with a whitespace separator adds no visible character |
| PyStr.JoinHasLayout | oracle_main.py:182 | `sep.join(parts)` places each part verbatim, in order, with exactly one separator between neighbours and nothing else |
| PyStr.LayoutIsJoin | oracle_main.py:182 | that layout determines the string: `join` is the only string that has it |
| Summary.CleanSummary | oracle_main.py:30-33 | the result has no whitespace at either end; without the preamble at the start it is just the stripped input |
| Summary.PreambleEnd | oracle_main.py:31 | the hand-written matcher: an end it reports lies just after a colon up to which the anchored lazy pattern matches |
| Summary.PreambleEndSound | oracle_main.py:31 | what the hand-written matcher finds is a match of `^Here is a summary .*?:` |
| Summary.PreambleEndFound | oracle_main.py:31 | the matcher finds the match whenever the pattern matches |
| Summary.PreambleEndUnique | oracle_main.py:31 | the lazy pattern matches at most one prefix, ending at the first colon after the preamble |
| Summary.CleanSummaryRemovesMatch | oracle_main.py:31-32 | when the pattern matches up to a colon, exactly that prefix is removed and the rest is stripped |
| Summary.CleanSummaryNoMatch | oracle_main.py:31-32 | when the pattern does not match, the summary is only stripped |
| Summary.CleanSummaryKeepsTail | oracle_main.py:30-33 | only a leading stretch is removed: the visible text of the result is a suffix of the input's visible text |
| Summary.CleanSummaryDropsPreamble | oracle_main.py:31-32 | preamble, a stretch without colon or newline, and a colon are removed; what follows is kept, stripped |
| Summary.CleanSummaryExample | oracle_main.py:30-33 | "Here is a summary of the key points:  Widgets are great." becomes "Widgets are great." |
| Summary.EchoesPrompt | oracle_main.py:95 | the reply echoes the prompt exactly when the phrase "summary of the text in about" occurs somewhere in its lower-cased text |
| Summary.CleanSummaryNotIdempotent | oracle_main.py:30-33 | applying `clean_summary` twice can remove a second preamble, so the function is not idempotent |
| Summary.CleanSummaryStable | oracle_main.py:30-33 | a second application changes nothing unless the first one left a preamble at the front |
| Summary.Cleaned | oracle_main.py:91-93 | the reply stripped and cleaned has no whitespace at either end, and is just the stripped reply when that does not start with the preamble |
| Summary.GenerateSummary | oracle_main.py:91-104 | the result is the sentinel, or the cleaned reply with at least 20 characters that does not contain the echo phrase; a failed call gives the sentinel |
| Summary.SentinelExactlyWhenRejected | oracle_main.py:95-104 | the sentinel comes back if and only if the call failed, the cleaned reply is shorter than 20, or it echoes the prompt |
| Scrape.PhraseChunks | oracle_main.py:49-51 | stripped phrases with the empty ones dropped: every chunk is non-empty and stripped, the visible text is kept, and the phrases joined with double spaces are the chunks verbatim and in order, with only whitespace around them and a double space inside every stretch between two of them |
| Scrape.LineChunks | oracle_main.py:47-51 | the chunks of one stripped line split on double spaces: each non-empty, stripped, without double space or line break, and together keeping the line's visible text |
| Scrape.LineWoven | oracle_main.py:47-51 | the line is its chunks verbatim and in order, with only whitespace around them and a double space inside every stretch between two of them |
| Scrape.Chunks | oracle_main.py:47-51 | the chunks of all lines, in order, each non-empty and stripped, keep every visible character of the lines |
| Scrape.ChunksWoven | oracle_main.py:47-51 | whatever boundaries end the lines, the text they spell is the chunks verbatim and in order, with only whitespace around them and a line boundary or a double space inside every stretch between two of them |
| Scrape.Normalise | oracle_main.py:45-51 | the output keeps the page's visible text in order; each newline-separated piece is non-empty, stripped, and has no double space and no line break; and the page text is those pieces, verbatim and in order, with only whitespace around them and a line boundary or a double space inside every stretch between two of them |
| Scrape.ChunkLines | oracle_main.py:51 | chunks joined with newlines split back into the same chunks |
| Scrape.ScrapeWebsite | oracle_main.py:35-56 | a fetched page gives its normalised text, whose visible characters are the page's; a request failure gives `""`; any other exception escapes |
| Scrape.ScrapeHits | oracle_main.py:68-78 | one website per search hit, in order, with its url, title and scraped text, unless some scrape raises |
| Scrape.GetRelevantWebsites | oracle_main.py:58-82 | the scraped results in order, or `[]` when the search fails or a scrape raises |
| Ranking.Entry | oracle_main.py:160-165 | the record appended for a website keeps its url and title, holds the summary, and scores it by its length |
| Ranking.KeptAt | oracle_main.py:156-159 | the positions of the non-sentinel summaries, in increasing order: every non-sentinel position is listed, no sentinel position is, and there are as many as websites minus sentinels |
| Ranking.Relevant | oracle_main.py:155-165 | entry `k` is the entry of the `k`-th non-sentinel website, in the websites' order, scored by its summary's length; every non-sentinel website has its entry, and the count is the number of websites minus the sentinels |
| Ranking.Insert | oracle_main.py:167 | inserting into a sorted list keeps it sorted and adds exactly the one entry |
| Ranking.InsertStable | oracle_main.py:167 | inserting keeps the order among entries of equal score |
| Ranking.SortByScore | oracle_main.py:167 | the result is sorted by descending score, is a permutation of the input, and keeps the input order among equal scores |
| Ranking.StableSortUnique | oracle_main.py:167 | two descending orders that keep every equal-score order are the same sequence |
| Ranking.SortByScoreIsTheStableSort | oracle_main.py:167 | any stable descending sort of the input equals `SortByScore` |
| Ranking.TakeSorted | oracle_main.py:167 | a prefix of a sorted list is sorted, is a sub-multiset, and no dropped entry outscores the last kept one |
| Ranking.TopThree | oracle_main.py:167 | the top list has `min(3, n)` entries, is sorted by descending score, comes from the input, outscores every dropped entry, and keeps the input order among equal scores |
| Ranking.CombinedContent | oracle_main.py:182 | the context holds the kept summaries verbatim in ranked order, separated by blank lines; it is empty exactly when nothing was kept |
| KeyPool.Initial | oracle_main.py:21-22 | the pool starts with a valid cursor on the first key |
| KeyPool.SwitchKey | oracle_main.py:24-27 | the cursor stays within the pool and moves to the next key, wrapping from the last key to the first |
| KeyPool.RotateIndex | oracle_main.py:26 | after `n` switches the cursor has moved `n` places modulo the pool size |
| KeyPool.RotateAdd | oracle_main.py:26 | switching `n` and then `m` times is switching `n + m` times |
| KeyPool.FullCycle | oracle_main.py:26 | as many switches as there are keys bring the cursor back to its start |
| KeyPool.PartialCycle | oracle_main.py:26 | fewer switches than there are keys never bring the cursor back |
| Synthesis.FullPrompt | oracle_main.py:111 | the user message is "Context: ", the context, a blank line, "Question: ", the prompt, a blank line and "Answer:" |
| Synthesis.IsRateLimited | oracle_main.py:139 | an attempt counts as rate-limited exactly when it raised and `"rate_limit_exceeded"` occurs somewhere in its message |
| Synthesis.RetryFrom | oracle_main.py:107-143 | the loop from attempt `a` on keeps the same key list and a valid cursor, and makes between `a` and `max_retries` calls in all |
| Synthesis.ResponseValue | oracle_main.py:135-143 | an answer comes back stripped with its visible text unchanged; the apology is the fixed text; a loop that runs out returns `None` |
| Synthesis.RetryRotations | oracle_main.py:137-141 | the key is switched once per rate-limit error among the calls made, and never otherwise |
| Synthesis.RetryRaisedBefore | oracle_main.py:109-137 | every call before the last one made raised an exception |
| Synthesis.RetryAnswers | oracle_main.py:109-135 | the loop answers if and only if its last call completed, with that call's content, and it stops early only with an answer |
| Synthesis.RetryGivesUp | oracle_main.py:137-143 | the apology comes if and only if the last permitted call fails without a rate limit; no value comes if and only if that call is rate-limited or no call is permitted |
| Synthesis.GenerateLlmResponse | oracle_main.py:107-143 | at most `max_retries` calls; the cursor ends advanced by the number of rate-limit errors among the calls made |
| Synthesis.FirstSuccess | oracle_main.py:109-140 | the first completed call's content comes back stripped, after exactly the key switches of the rate-limit errors before it |
| Synthesis.AllFail | oracle_main.py:137-143 | when every call raises, all are made and the last one decides between the apology and no value |
| Synthesis.RateLimitedTwiceThenAnswered | oracle_main.py:107-143 | two rate-limit errors then an answer: the third reply, stripped, with the cursor two keys on |
| Synthesis.RateLimitedLastGivesNothing | oracle_main.py:137-144 | a rate-limit error on the last of three attempts makes the function return `None` |
| Synthesis.OtherErrorLastApologises | oracle_main.py:142-143 | another error on the last of three attempts gives the apology |
| Oracle.SummariseAll | oracle_main.py:156-158 | one summary per website, each the sentinel or a usable cleaned reply |
| Oracle.Rank | oracle_main.py:155-167 | `min(3, n)` entries for `n` non-sentinel summaries, sorted by descending score, each with a usable summary, taken from the relevant entries; no entry left out outscores the last one kept, and among equal scores the kept entries are the first ones in the websites' order |
| Oracle.Assemble | oracle_main.py:155-182 | from the summaries of the websites: the ranking as above, and a context that holds the ranked summaries verbatim, in order, separated by blank lines, empty exactly when every summary is the sentinel |
| Oracle.RankSearch | oracle_main.py:153-182 | one search: the scraped websites, summary `i` the guarded summary of reply `i`, the ranking as above, and the context laid out from the ranked summaries, empty exactly when every summary is the sentinel |
| Oracle.HandleSearch | oracle_main.py:151-184 | each website's summary is `generate_summary` of its reply, the top entries are ranked as above, the context is their summaries joined by blank lines and is empty exactly when every summary is the sentinel, the request embeds the context and the prompt, and the answer is the retry loop's outcome with at most three calls |
| Oracle.RankEmptyExactly | oracle_main.py:155-167 | nothing is ranked if and only if every summary is the sentinel |
| Oracle.ContextEmptyExactly | oracle_main.py:153-184 | the context handed to the answering model is empty if and only if every summary is the sentinel |
| Oracle.SearchFailedEmptyContext | oracle_main.py:80-82 | a failed search leaves nothing to rank and an empty context |

## Left out

- The Streamlit interface in `main`: title, input box, button, columns, expanders, spinners and `st.write`. It is presentation only.
- The Exa, Cohere and Groq clients and their construction. Their results are inputs: a search outcome, a reply or failure per summary, and an outcome per answering attempt.
- `requests.get`, BeautifulSoup parsing and the `<script>`/`<style>` removal (lines 37-45). A fetched page is its extracted text.
- `time.sleep(2)`, every `print`, and reading the keys from the environment. None of them affect a returned value.
- The system prompt text, model names, `max_tokens` and `temperature` of the answering call. They are constants passed to a service that is not modelled.
- The summarisation prompt at line 89, including `max_length`. Only the service's reply is modelled.
- `oracle.py` and `try_exa.py` are not part of this model. The first is an older, non-working copy of the same pipeline. The second only calls the search API.
- PyStr.Lower: folds ASCII letters only. `re.IGNORECASE` also matches some non-ASCII letters, for example `İ`, `ı` and `ſ`, against `i` and `s`, so the gap affects only the `clean_summary` pattern. The echo phrase checked with `str.lower()` is ASCII and contains no `k`, so ASCII folding gives the same answer there.
- Summary.CleanSummary: the pattern is written out by hand rather than as a general regular-expression engine. It is anchored at the start, `.` does not match a newline, and the case folding is ASCII only.

## Behaviour worth knowing

- `clean_summary` is not idempotent. The lazy pattern stops at the first colon, so a reply that starts with two preambles keeps the second one after one application, and a second application removes it (`Summary.CleanSummaryNotIdempotent`). A second application changes nothing when the first one left no preamble at the front (`Summary.CleanSummaryStable`).
- `generate_llm_response` can return `None`. When the last permitted attempt fails with a rate-limit error, the loop switches the key and ends without a `return` (`Synthesis.RateLimitedLastGivesNothing`).
- `scrape_website` catches only `requests.RequestException`. Any other exception escapes into `get_relevant_websites`, whose handler then returns `[]` for the whole search (`Scrape.GetRelevantWebsites`).

=== FILE: keypool.dfy ===
/** The pool of answering-model API keys and `switch_groq_api_key`, which
    moves a cyclic cursor to the next key and rebuilds the client with it.
    Keys are opaque values of any type. */
module KeyPool {

  /** How many keys the module sets up. */
  const PoolSize := 3

  /** The key list and the index of the key the client currently uses. */
  datatype Ring<K> = Ring(keys: seq<K>, current: nat)

  /** The cursor points into a non-empty key list. */
  predicate Valid<K>(ring: Ring<K>) {
    0 < |ring.keys| && ring.current < |ring.keys|
  }

  /** The key the client is built with. */
  function ActiveKey<K>(ring: Ring<K>): K
    requires Valid(ring)
  {
    ring.keys[ring.current]
  }

  /** The module's initial state: the first key is active. */
  function Initial<K>(keys: seq<K>): (ring: Ring<K>)
    requires |keys| == PoolSize
    ensures Valid(ring) && ActiveKey(ring) == keys[0]
  {
    Ring(keys, 0)
  }

  /** `switch_groq_api_key`: the next key becomes active, and after the last
      key comes the first one again. */
  function SwitchKey<K>(ring: Ring<K>): (r: Ring<K>)
    requires Valid(ring)
    ensures Valid(r) && r.keys == ring.keys
    ensures ring.current + 1 < |ring.keys| ==> r.current == ring.current + 1
    ensures ring.current + 1 == |ring.keys| ==> r.current == 0
  {
    Ring(ring.keys, (ring.current + 1) % |ring.keys|)
  }

  /** `n` switches in a row. */
  function Rotate<K>(ring: Ring<K>, n: nat): (r: Ring<K>)
    requires Valid(ring)
    ensures Valid(r) && r.keys == ring.keys
    decreases n
  {
    if n == 0 then ring else Rotate(SwitchKey(ring), n - 1)
  }

  /** After `n` switches the cursor has advanced `n` places modulo the pool
      size. */
  lemma {:induction false} RotateIndex<K>(ring: Ring<K>, n: nat)
    requires Valid(ring)
    ensures Rotate(ring, n).current == (ring.current + n) % |ring.keys|
    decreases n
  {
    if n == 0 {
      ModSmall(ring.current, |ring.keys|);
    } else {
      var next := SwitchKey(ring);
      assert Rotate(ring, n) == Rotate(next, n - 1);
      RotateIndex(next, n - 1);
      ModStep(ring.current, n - 1, |ring.keys|);
    }
  }

  /** Advancing by one and then by `m` is advancing by `m + 1`. */
  lemma ModStep(c: nat, m: nat, size: nat)
    requires 0 < size && c < size
    ensures ((c + 1) % size + m) % size == (c + m + 1) % size
  {
    if c + 1 == size {
      assert (c + 1) % size == 0;
      ModAddSize(m, size);
    } else {
      assert (c + 1) % size == c + 1;
    }
  }

  /** A number below the modulus is its own remainder. */
  lemma ModSmall(c: nat, size: nat)
    requires c < size
    ensures c % size == c
  {
  }

  /** Adding the modulus does not change a remainder. */
  lemma ModAddSize(m: int, size: int)
    requires 0 < size
    ensures (m + size) % size == m % size
  {
    var q, r := m / size, m % size;
    var q', r' := (m + size) / size, (m + size) % size;
    assert size * (q' - q - 1) == r - r';
    MulSmall(q' - q - 1, size);
  }

  /** The only multiple of `size` strictly between `-size` and `size` is 0. */
  lemma MulSmall(k: int, size: int)
    requires 0 < size && -size < size * k < size
    ensures k == 0
  {
  }

  /** Switching keys `n` times and then `m` times is switching `n + m` times. */
  lemma {:induction false} RotateAdd<K>(ring: Ring<K>, n: nat, m: nat)
    requires Valid(ring)
    ensures Rotate(Rotate(ring, n), m) == Rotate(ring, n + m)
    decreases n
  {
    if n != 0 {
      RotateAdd(SwitchKey(ring), n - 1, m);
    }
  }

  /** As many switches as there are keys bring the cursor back to where it
      started. */
  lemma FullCycle<K>(ring: Ring<K>)
    requires Valid(ring)
    ensures Rotate(ring, |ring.keys|) == ring
  {
    var size, c := |ring.keys|, ring.current;
    RotateIndex(ring, size);
    ModAddSize(c, size);
    ModSmall(c, size);
    var r := Rotate(ring, size);
    assert r.current == c && r.keys == ring.keys;
  }

  /** Fewer switches than there are keys never come back to the starting
      key position: every key is visited once per cycle. */
  lemma PartialCycle<K>(ring: Ring<K>, n: nat)
    requires Valid(ring) && 0 < n < |ring.keys|
    ensures Rotate(ring, n).current != ring.current
  {
    RotateIndex(ring, n);
    var size, c := |ring.keys|, ring.current;
    if c + n < size {
      ModSmall(c + n, size);
    } else {
      ModAddSize(c + n - size, size);
      ModSmall(c + n - size, size);
    }
  }
}

=== FILE: oracle.dfy ===
/** The search handler of `main`, without its user interface: fetch and
    scrape the search results, summarise each page, rank the summaries,
    join the best three into a context and ask the answering model. Every
    external call is an input: the search outcome, one summariser reply per
    website and the answering model's outcome for each attempt. */
module Oracle {
  import opened PyStr
  import opened Summary
  import opened Scrape
  import opened Ranking
  import opened KeyPool
  import opened Synthesis

  /** The websites found, their summaries, the three best ones and the
      context built from them. */
  datatype Ranked = Ranked(
    websites: seq<Website>,   // from `get_relevant_websites`
    summaries: seq<string>,   // one `generate_summary` result per website
    top: seq<Scored>,         // the three best relevant websites
    context: string)          // the joined summaries

  /** What one press of the search button produces: the ranking, the user
      message sent to the answering model, and how the answering loop ended
      with the key ring it left behind. */
  datatype Outcome<K> = Outcome(ranked: Ranked, request: string, answer: Run<K>)

  /** `generate_summary` over every website, in order. */
  function SummariseAll(replies: seq<ChatReply>): (r: seq<string>)
    ensures |r| == |replies| && forall i :: 0 <= i < |r| ==> r[i] == GenerateSummary(replies[i])
    ensures forall i :: 0 <= i < |r| ==> r[i] == Sentinel || (replies[i].Replied? && r[i] == Cleaned(replies[i].text))
    ensures forall i :: 0 <= i < |r| ==> r[i] == Sentinel || (|r[i]| >= MinLength && !EchoesPrompt(r[i]))
  {
    seq(|replies|, i requires 0 <= i < |replies| => GenerateSummary(replies[i]))
  }

  /** The search step of the handler in `main`: search, summarise every
      website, rank the summaries and join the best ones into the context. */
  function RankSearch(search: SearchOutcome, replies: seq<ChatReply>): (p: Ranked)
    requires |replies| == |GetRelevantWebsites(search)|
    ensures p.websites == GetRelevantWebsites(search)
    ensures |p.summaries| == |p.websites| && forall i :: 0 <= i < |p.summaries| ==> p.summaries[i] == GenerateSummary(replies[i])
    ensures RankedFrom(p.websites, p.summaries, p.top)
    ensures JoinLayout(Summaries(p.top), "\n\n", p.context)
    ensures p.context == "" <==> forall i :: 0 <= i < |p.summaries| ==> p.summaries[i] == Sentinel
  {
    var summaries := SummariseAll(replies);
    Assemble(GetRelevantWebsites(search), summaries)
  }

  /** Ranks the summarised websites and joins the kept summaries. */
  function Assemble(websites: seq<Website>, summaries: seq<string>): (p: Ranked)
    requires |summaries| == |websites|
    requires forall i :: 0 <= i < |summaries| ==> summaries[i] == Sentinel || |summaries[i]| >= MinLength
    ensures p.websites == websites && p.summaries == summaries
    ensures RankedFrom(websites, summaries, p.top)
    ensures JoinLayout(Summaries(p.top), "\n\n", p.context)
    ensures p.context == "" <==> forall i :: 0 <= i < |summaries| ==> summaries[i] == Sentinel
  {
    var top := Rank(websites, summaries);
    CountSentinelAll(summaries);
    UsableNonEmpty(top);
    Ranked(websites, summaries, top, CombinedContent(top))
  }

  /** The body of `if st.button("Search")` in `main`, with the default of
      three answering attempts: the answering model is asked about the
      prompt with the joined summaries as context. */
  function HandleSearch<K>(ring: Ring<K>, prompt: string, search: SearchOutcome, replies: seq<ChatReply>, attempts: seq<Attempt>): (o: Outcome<K>)
    requires Valid(ring)
    requires |replies| == |GetRelevantWebsites(search)| && DefaultRetries <= |attempts|
    ensures o.ranked.websites == GetRelevantWebsites(search) && |o.ranked.summaries| == |o.ranked.websites|
    ensures forall i :: 0 <= i < |o.ranked.summaries| ==> o.ranked.summaries[i] == GenerateSummary(replies[i])
    ensures RankedFrom(o.ranked.websites, o.ranked.summaries, o.ranked.top)
    ensures JoinLayout(Summaries(o.ranked.top), "\n\n", o.ranked.context)
    ensures o.ranked.context == "" <==> forall i :: 0 <= i < |o.ranked.summaries| ==> o.ranked.summaries[i] == Sentinel
    ensures |o.request| == |o.ranked.context| + |prompt| + 30
    ensures o.request[9..9 + |o.ranked.context|] == o.ranked.context
    ensures o.request[|o.request| - 9 - |prompt|..|o.request| - 9] == prompt
    ensures o.answer.calls <= DefaultRetries && Valid(o.answer.ring)
    ensures o.answer == GenerateLlmResponse(ring, attempts, DefaultRetries)
  {
    var ranked := RankSearch(search, replies);
    var request := FullPrompt(ranked.context, prompt);
    Outcome(ranked, request, GenerateLlmResponse(ring, attempts, DefaultRetries))
  }

  /** Every ranked website has a summary that is not the sentinel and is
      at least `MinLength` characters long, and is scored by that length. */
  predicate Usable(top: seq<Scored>) {
    forall k :: 0 <= k < |top| ==> top[k].summary != Sentinel && top[k].score == |top[k].summary| >= MinLength
  }

  /** `top` is what ranking the websites by their summaries gives: one
      entry per usable summary up to three, best first, each with a usable
      summary; the entries left out score no more than the last one kept,
      and entries of equal score keep the websites' order. */
  ghost predicate RankedFrom(websites: seq<Website>, summaries: seq<string>, top: seq<Scored>)
    requires |summaries| == |websites|
  {
    var relevant := Relevant(websites, summaries);
    var kept := |websites| - CountSentinel(summaries);
    && |top| == (if kept < TopCount then kept else TopCount)
    && NonIncreasing(top) && Usable(top)
    && multiset(top) <= multiset(relevant)
    && (forall e: Scored | e in multiset(relevant) - multiset(top) :: 0 < |top| && e.score <= top[|top| - 1].score)
    && (forall v :: IsPrefix(WithScore(top, v), WithScore(relevant, v)))
  }

  /** The ranking step of the handler in `main`: the relevant websites,
      best first, at most three of them, each with a usable summary; the
      entries left out score no more than the last one kept, and entries of
      equal score keep the websites' order. */
  function Rank(websites: seq<Website>, summaries: seq<string>): (top: seq<Scored>)
    requires |summaries| == |websites|
    requires forall i :: 0 <= i < |summaries| ==> summaries[i] == Sentinel || |summaries[i]| >= MinLength
    ensures RankedFrom(websites, summaries, top)
  {
    var relevant := Relevant(websites, summaries);
    var top := TopThree(relevant);
    TopUsable(websites, summaries);
    RankedFromTop(websites, summaries, relevant, top);
    top
  }

  /** What `TopThree` promises about the relevant entries, restated for
      the websites and summaries they come from. */
  lemma RankedFromTop(websites: seq<Website>, summaries: seq<string>, relevant: seq<Scored>, top: seq<Scored>)
    requires |summaries| == |websites| && relevant == Relevant(websites, summaries)
    requires |relevant| == |websites| - CountSentinel(summaries)
    requires |top| == if |relevant| < TopCount then |relevant| else TopCount
    requires NonIncreasing(top) && Usable(top) && multiset(top) <= multiset(relevant)
    requires forall e: Scored | e in multiset(relevant) - multiset(top) :: 0 < |top| && e.score <= top[|top| - 1].score
    requires forall v :: IsPrefix(WithScore(top, v), WithScore(relevant, v))
    ensures RankedFrom(websites, summaries, top)
  {
  }

  /** Every ranked website has a usable summary: not the sentinel, and at
      least `MinLength` characters long. */
  lemma TopUsable(websites: seq<Website>, summaries: seq<string>)
    requires |summaries| == |websites|
    requires forall i :: 0 <= i < |summaries| ==> summaries[i] == Sentinel || |summaries[i]| >= MinLength
    ensures Usable(TopThree(Relevant(websites, summaries)))
  {
    var relevant := Relevant(websites, summaries);
    RelevantUsable(websites, summaries);
    var top := TopThree(relevant);
    forall k | 0 <= k < |top|
      ensures top[k].summary != Sentinel && top[k].score == |top[k].summary| >= MinLength
    {
      FromSubMultiset(top, relevant, k);
    }
  }

  /** An entry of a sub-multiset of `b` is an entry of `b`. */
  lemma FromSubMultiset(a: seq<Scored>, b: seq<Scored>, k: int)
    requires multiset(a) <= multiset(b) && 0 <= k < |a|
    ensures a[k] in b
  {
    assert a[k] in multiset(a);
  }

  lemma RelevantUsable(websites: seq<Website>, summaries: seq<string>)
    requires |summaries| == |websites|
    requires forall i :: 0 <= i < |summaries| ==> summaries[i] == Sentinel || |summaries[i]| >= MinLength
    ensures forall e <- Relevant(websites, summaries) :: e.summary != Sentinel && e.score == |e.summary| >= MinLength
  {
    var relevant := Relevant(websites, summaries);
    forall e <- relevant ensures e.summary != Sentinel && e.score == |e.summary| >= MinLength {
      var j :| 0 <= j < |relevant| && relevant[j] == e;
      var i :| 0 <= i < |summaries| && summaries[i] == e.summary;
    }
  }

  /** Nothing is ranked exactly when every summary is the sentinel. */
  lemma RankEmptyExactly(websites: seq<Website>, summaries: seq<string>)
    requires |summaries| == |websites|
    requires forall i :: 0 <= i < |summaries| ==> summaries[i] == Sentinel || |summaries[i]| >= MinLength
    ensures Rank(websites, summaries) == [] <==> forall i :: 0 <= i < |summaries| ==> summaries[i] == Sentinel
  {
    CountSentinelAll(summaries);
  }

  /** The context handed to the answering model is empty exactly when every
      website's summary is the sentinel. */
  lemma ContextEmptyExactly<K>(ring: Ring<K>, prompt: string, search: SearchOutcome, replies: seq<ChatReply>, attempts: seq<Attempt>)
    requires Valid(ring)
    requires |replies| == |GetRelevantWebsites(search)| && DefaultRetries <= |attempts|
    ensures var o := HandleSearch(ring, prompt, search, replies, attempts);
      o.ranked.context == "" <==> forall i :: 0 <= i < |o.ranked.summaries| ==> o.ranked.summaries[i] == Sentinel
  {
    var o := HandleSearch(ring, prompt, search, replies, attempts);
    assert o.ranked == RankSearch(search, replies);
  }

  /** A failed search leaves nothing to rank, and the answering model gets
      an empty context. */
  lemma SearchFailedEmptyContext<K>(ring: Ring<K>, prompt: string, replies: seq<ChatReply>, attempts: seq<Attempt>)
    requires Valid(ring) && replies == [] && DefaultRetries <= |attempts|
    ensures var o := HandleSearch(ring, prompt, SearchFailed, replies, attempts);
      o.ranked.top == [] && o.ranked.context == ""
  {
    ContextEmptyExactly(ring, prompt, SearchFailed, replies, attempts);
  }

  /** Kept summaries are never empty, so neither is their join. */
  lemma UsableNonEmpty(top: seq<Scored>)
    requires Usable(top)
    ensures CombinedContent(top) == "" <==> top == []
  {
    assert forall k :: 0 <= k < |top| ==> top[k].summary != "";
  }
}

=== FILE: pystr.dfy ===
/** The few Python `str` operations the pipeline relies on: `isspace`,
    `strip`, `lower`, the `in` operator, `split`, `splitlines` and `join`.
    Strings are sequences of Unicode scalar values, as Python `str` values
    are sequences of code points. */
module PyStr {

  /** Python's `str.isspace()` for one character: the characters that
      `str.strip()` with no argument removes. */
  predicate IsSpace(c: char) {
    var n := c as int;
    (0x09 <= n <= 0x0D) || (0x1C <= n <= 0x20) || n == 0x85 || n == 0xA0
    || n == 0x1680 || (0x2000 <= n <= 0x200A) || n == 0x2028 || n == 0x2029
    || n == 0x202F || n == 0x205F || n == 0x3000
  }

  /** The line boundaries of `str.splitlines()`; every one of them is also
      whitespace. */
  predicate IsLineBreak(c: char) {
    var n := c as int;
    (0x0A <= n <= 0x0D) || (0x1C <= n <= 0x1E) || n == 0x85 || n == 0x2028 || n == 0x2029
  }

  predicate AllSpace(s: string) {
    forall i :: 0 <= i < |s| ==> IsSpace(s[i])
  }

  predicate NoLineBreak(s: string) {
    forall i :: 0 <= i < |s| ==> !IsLineBreak(s[i])
  }

  /** Neither end of `s` is whitespace: what `s.strip() == s` means. */
  predicate IsStripped(s: string) {
    s == [] || (!IsSpace(s[0]) && !IsSpace(s[|s| - 1]))
  }

  /** Two adjacent spaces start at index `i`. */
  predicate DoubleSpaceAt(s: string, i: int) {
    0 <= i && i + 1 < |s| && s[i] == ' ' && s[i + 1] == ' '
  }

  /** Python's `"  " in s`. */
  predicate HasDoubleSpace(s: string) {
    exists i :: 0 <= i < |s| && DoubleSpaceAt(s, i)
  }

  // ---------------------------------------------------------------------
  // Visible content: the non-whitespace characters, in order

  /** The characters of `s` that are not whitespace, in their order. The
      text operations below only ever remove whitespace, which they state
      by keeping this sequence unchanged. */
  function NonBlank(s: string): string {
    if s == [] then [] else (if IsSpace(s[0]) then [] else [s[0]]) + NonBlank(s[1..])
  }

  function NonBlankAll(parts: seq<string>): string {
    if parts == [] then [] else NonBlank(parts[0]) + NonBlankAll(parts[1..])
  }

  lemma {:induction false} NonBlankConcat(a: string, b: string)
    ensures NonBlank(a + b) == NonBlank(a) + NonBlank(b)
    decreases |a|
  {
    if a == [] {
      assert a + b == b;
    } else {
      assert (a + b)[1..] == a[1..] + b;
      NonBlankConcat(a[1..], b);
    }
  }

  lemma {:induction false} NonBlankAllConcat(a: seq<string>, b: seq<string>)
    ensures NonBlankAll(a + b) == NonBlankAll(a) + NonBlankAll(b)
    decreases |a|
  {
    if a == [] {
      assert a + b == b;
    } else {
      assert (a + b)[1..] == a[1..] + b;
      NonBlankAllConcat(a[1..], b);
    }
  }

  /** A string has no visible character exactly when it is all whitespace. */
  lemma {:induction false} NonBlankEmpty(s: string)
    ensures NonBlank(s) == [] <==> AllSpace(s)
    decreases |s|
  {
    if s != [] {
      NonBlankEmpty(s[1..]);
      assert AllSpace(s) <==> IsSpace(s[0]) && AllSpace(s[1..]) by {
        if IsSpace(s[0]) && AllSpace(s[1..]) {
          forall i | 0 <= i < |s| ensures IsSpace(s[i]) {
            if i > 0 { assert s[i] == s[1..][i - 1]; }
          }
        }
      }
    }
  }

  /** Cutting a whitespace run out of `s` keeps its visible content. */
  lemma NonBlankAround(s: string, i: nat, j: nat)
    requires i <= j <= |s| && AllSpace(s[i..j])
    ensures NonBlank(s) == NonBlank(s[..i]) + NonBlank(s[j..])
  {
    ThreeSlices(s, i, j);
    NonBlankSkip(s[..i], s[i..j], s[j..]);
  }

  lemma ThreeSlices<T>(s: seq<T>, i: nat, j: nat)
    requires i <= j <= |s|
    ensures s == s[..i] + s[i..j] + s[j..]
  {
  }

  lemma NonBlankSkip(a: string, m: string, b: string)
    requires AllSpace(m)
    ensures NonBlank(a + m + b) == NonBlank(a) + NonBlank(b)
  {
    NonBlankConcat(a + m, b);
    NonBlankConcat(a, m);
    NonBlankEmpty(m);
  }

  // ---------------------------------------------------------------------
  // str.strip()

  /** Python's `s.lstrip()`: drops the longest all-whitespace prefix. */
  function LStrip(s: string): (r: string)
    ensures |r| <= |s| && r == s[|s| - |r|..]
    ensures AllSpace(s[..|s| - |r|])
    ensures r == [] || !IsSpace(r[0])
    decreases |s|
  {
    if s != [] && IsSpace(s[0]) then
      var r := LStrip(s[1..]);
      assert s[..|s| - |r|] == [s[0]] + s[1..][..|s| - 1 - |r|];
      r
    else
      s
  }

  /** Python's `s.rstrip()`: drops the longest all-whitespace suffix. */
  function RStrip(s: string): (r: string)
    ensures |r| <= |s| && r == s[..|r|]
    ensures AllSpace(s[|r|..])
    ensures r == [] || !IsSpace(r[|r| - 1])
    decreases |s|
  {
    if s != [] && IsSpace(s[|s| - 1]) then
      var init, last := s[..|s| - 1], s[|s| - 1];
      var r := RStrip(init);
      assert s == init + [last];
      assert AllSpace(s[|r|..]) by {
        forall m | |r| <= m < |s| ensures IsSpace(s[m]) {
          if m < |init| { assert s[m] == init[|r|..][m - |r|]; }
        }
      }
      r
    else
      s
  }

  /** Where `Strip(s)` starts inside `s`. */
  function StripStart(s: string): nat {
    |s| - |LStrip(s)|
  }

  /** Python's `s.strip()`: the slice of `s` left once whitespace is removed
      from both ends. */
  function Strip(s: string): (r: string)
    ensures IsStripped(r)
    ensures IsStripped(s) ==> r == s
  {
    var l := LStrip(s);
    assert IsStripped(s) ==> l == s;
    RStrip(l)
  }

  /** Stripping removes whitespace only. */
  lemma StripVisible(s: string)
    ensures NonBlank(Strip(s)) == NonBlank(s)
  {
    LStripVisible(s);
    RStripVisible(LStrip(s));
  }

  lemma LStripVisible(s: string)
    ensures NonBlank(LStrip(s)) == NonBlank(s)
  {
    DropSpacePrefix(s, |s| - |LStrip(s)|);
  }

  lemma RStripVisible(s: string)
    ensures NonBlank(RStrip(s)) == NonBlank(s)
  {
    DropSpaceSuffix(s, |RStrip(s)|);
  }

  /** Dropping an all-whitespace prefix keeps the visible content. */
  lemma DropSpacePrefix(s: string, d: nat)
    requires d <= |s| && AllSpace(s[..d])
    ensures NonBlank(s[d..]) == NonBlank(s)
  {
    assert s == s[..d] + s[d..];
    NonBlankConcat(s[..d], s[d..]);
    NonBlankEmpty(s[..d]);
  }

  /** Dropping an all-whitespace suffix keeps the visible content. */
  lemma DropSpaceSuffix(s: string, n: nat)
    requires n <= |s| && AllSpace(s[n..])
    ensures NonBlank(s[..n]) == NonBlank(s)
  {
    assert s == s[..n] + s[n..];
    NonBlankConcat(s[..n], s[n..]);
    NonBlankEmpty(s[n..]);
  }

  /** Leading whitespace makes no difference to `Strip`. */
  lemma {:induction false} StripPastSpace(ws: string, x: string)
    requires AllSpace(ws)
    ensures Strip(ws + x) == Strip(x)
    decreases |ws|
  {
    if ws == [] {
      assert ws + x == x;
    } else {
      assert (ws + x)[0] == ws[0];
      assert (ws + x)[1..] == ws[1..] + x;
      assert LStrip(ws + x) == LStrip(ws[1..] + x);
      assert Strip(ws + x) == RStrip(LStrip(ws + x));
      assert Strip(ws[1..] + x) == RStrip(LStrip(ws[1..] + x));
      StripPastSpace(ws[1..], x);
    }
  }

  /** Stripping a stripped text padded on the left gives the text back. */
  lemma StripPadded(ws: string, w: string)
    requires AllSpace(ws) && IsStripped(w)
    ensures Strip(ws + w) == w
  {
    StripPastSpace(ws, w);
  }

  /** `Strip(s)` is the slice of `s` between an all-whitespace prefix and an
      all-whitespace suffix. */
  lemma StripSlice(s: string)
    ensures StripStart(s) + |Strip(s)| <= |s|
    ensures Strip(s) == s[StripStart(s)..StripStart(s) + |Strip(s)|]
    ensures AllSpace(s[..StripStart(s)]) && AllSpace(s[StripStart(s) + |Strip(s)|..])
  {
    var l, r, d := LStrip(s), Strip(s), StripStart(s);
    assert r == RStrip(l);
    assert d == |s| - |l|;
    SliceOfSlice(s, l, r, d);
  }

  /** A prefix `r` of the suffix `l == s[d..]` is the slice of `s` at `d`. */
  lemma SliceOfSlice(s: string, l: string, r: string, d: nat)
    requires d + |l| == |s| && l == s[d..]
    requires |r| <= |l| && r == l[..|r|] && AllSpace(l[|r|..])
    ensures r == s[d..d + |r|] && AllSpace(s[d + |r|..])
  {
    SliceOfSuffix(s, d, |r|);
  }

  /** A slice of `x + y` that lies in `y`. */
  lemma SliceOfConcat<T>(x: seq<T>, y: seq<T>, a: nat, b: nat)
    requires a <= b <= |y|
    ensures (x + y)[|x| + a..|x| + b] == y[a..b]
  {
  }

  /** The first part of `x + y` is `x`. */
  lemma PrefixOfConcat<T>(x: seq<T>, y: seq<T>)
    ensures (x + y)[0..|x|] == x
  {
  }

  lemma SliceOfSuffix<T>(s: seq<T>, d: nat, n: nat)
    requires d + n <= |s|
    ensures s[d..][..n] == s[d..d + n] && s[d..][n..] == s[d + n..]
  {
  }

  /** A slice of a string without a double space has none either. */
  lemma NoDoubleSpaceSlice(s: string, a: nat, b: nat)
    requires a <= b <= |s| && !HasDoubleSpace(s)
    ensures !HasDoubleSpace(s[a..b])
  {
    if HasDoubleSpace(s[a..b]) {
      var i :| 0 <= i < |s[a..b]| && DoubleSpaceAt(s[a..b], i);
      assert DoubleSpaceAt(s, a + i);
    }
  }

  /** A slice of a string without line boundaries has none either. */
  lemma NoLineBreakSlice(s: string, a: nat, b: nat)
    requires a <= b <= |s| && NoLineBreak(s)
    ensures NoLineBreak(s[a..b])
  {
    forall i | 0 <= i < b - a ensures !IsLineBreak(s[a..b][i]) {
      assert s[a..b][i] == s[a + i];
    }
  }

  /** Stripping keeps a property every slice of `s` has. */
  lemma StripNoDoubleSpace(s: string)
    requires !HasDoubleSpace(s)
    ensures !HasDoubleSpace(Strip(s))
  {
    StripSlice(s);
    NoDoubleSpaceSlice(s, StripStart(s), StripStart(s) + |Strip(s)|);
  }

  lemma StripNoLineBreak(s: string)
    requires NoLineBreak(s)
    ensures NoLineBreak(Strip(s))
  {
    StripSlice(s);
    NoLineBreakSlice(s, StripStart(s), StripStart(s) + |Strip(s)|);
  }

  // ---------------------------------------------------------------------
  // str.lower() and the `in` operator

  /** ASCII lower-casing of one character. */
  function LowerChar(c: char): char {
    if 'A' <= c <= 'Z' then (c as int + 32) as char else c
  }

  function Lower(s: string): (r: string)
    ensures |r| == |s| && forall i :: 0 <= i < |s| ==> r[i] == LowerChar(s[i])
    ensures forall i :: 0 <= i < |r| ==> !('A' <= r[i] <= 'Z')
    ensures forall i :: 0 <= i < |s| && !('A' <= s[i] <= 'Z') ==> r[i] == s[i]
    ensures forall i :: 0 <= i < |s| && 'A' <= s[i] <= 'Z' ==> r[i] as int == s[i] as int + 32
  {
    seq(|s|, i requires 0 <= i < |s| => LowerChar(s[i]))
  }

  /** `needle` appears verbatim in `s` starting at index `i`. */
  predicate OccursAt(s: string, needle: string, i: int) {
    0 <= i && i + |needle| <= |s| && s[i..i + |needle|] == needle
  }

  /** Python's `needle in s` for strings: some index of `s` starts a copy
      of `needle`. */
  predicate Contains(s: string, needle: string): (b: bool)
    ensures b <==> exists i :: OccursAt(s, needle, i)
    decreases |s|
  {
    var tail := s != [] && Contains(s[1..], needle);
    var b := (|needle| <= |s| && s[..|needle|] == needle) || tail;
    ContainsStep(s, needle, tail, b);
    b
  }

  /** An occurrence in `s` is one at the front or one in `s[1..]`. */
  lemma ContainsStep(s: string, needle: string, tail: bool, b: bool)
    requires tail <==> s != [] && exists i :: OccursAt(s[1..], needle, i)
    requires b == ((|needle| <= |s| && s[..|needle|] == needle) || tail)
    ensures b <==> exists i :: OccursAt(s, needle, i)
  {
    if s != [] {
      forall i | 0 < i ensures OccursAt(s, needle, i) <==> OccursAt(s[1..], needle, i - 1) {
        OccursShift(s, needle, i);
      }
      if tail {
        var i :| OccursAt(s[1..], needle, i);
        assert OccursAt(s, needle, i + 1);
      }
    }
    assert OccursAt(s, needle, 0) <==> |needle| <= |s| && s[..|needle|] == needle;
  }

  /** An occurrence past the front of `s` is one in `s[1..]`. */
  lemma OccursShift(s: string, needle: string, i: int)
    requires s != [] && 0 < i
    ensures OccursAt(s, needle, i) <==> OccursAt(s[1..], needle, i - 1)
  {
    if i + |needle| <= |s| {
      assert s[1..][i - 1..i - 1 + |needle|] == s[i..i + |needle|];
    }
  }

  // ---------------------------------------------------------------------
  // str.join, str.split(c), str.split("  ") and str.splitlines()

  /** Python's `sep.join(parts)`: empty for no parts, and otherwise
      starting with the first part verbatim. */
  function Join(parts: seq<string>, sep: string): (r: string)
    ensures parts == [] ==> r == []
    ensures parts != [] ==> |parts[0]| <= |r| && r[..|parts[0]|] == parts[0]
    decreases |parts|
  {
    if |parts| == 0 then ""
    else if |parts| == 1 then parts[0]
    else
      PrefixOfConcat(parts[0], sep + Join(parts[1..], sep));
      assert parts[0] + sep + Join(parts[1..], sep) == parts[0] + (sep + Join(parts[1..], sep));
      parts[0] + sep + Join(parts[1..], sep)
  }

  /** Where part `k` begins in `Join(parts, sep)` when `|sep| == sepLen`. */
  function PartStart(parts: seq<string>, sepLen: nat, k: nat): nat
    requires k <= |parts|
    decreases k
  {
    if k == 0 then 0 else |parts[0]| + sepLen + PartStart(parts[1..], sepLen, k - 1)
  }

  /** Part `k` appears verbatim in `Join(parts, sep)` at `PartStart`. */
  lemma {:induction false} JoinPart(parts: seq<string>, sep: string, k: nat)
    requires k < |parts|
    ensures PartStart(parts, |sep|, k) + |parts[k]| <= |Join(parts, sep)|
    ensures Join(parts, sep)[PartStart(parts, |sep|, k)..PartStart(parts, |sep|, k) + |parts[k]|] == parts[k]
    decreases k
  {
    if |parts| > 1 {
      var rt := Join(parts[1..], sep);
      JoinCons(parts, sep);
      if k > 0 {
        JoinPart(parts[1..], sep, k - 1);
        assert parts[k] == parts[1..][k - 1];
        ShiftedPart(parts[0] + sep, rt, PartStart(parts[1..], |sep|, k - 1), parts[k]);
      } else {
        PrefixOfConcat(parts[0], sep + rt);
        assert (parts[0] + sep) + rt == parts[0] + (sep + rt);
      }
    }
  }

  /** One unfolding of `Join` and of `PartStart` past the first part. */
  lemma JoinCons(parts: seq<string>, sep: string)
    requires |parts| > 1
    ensures Join(parts, sep) == (parts[0] + sep) + Join(parts[1..], sep)
    ensures forall k :: 0 < k <= |parts| ==>
      PartStart(parts, |sep|, k) == |parts[0] + sep| + PartStart(parts[1..], |sep|, k - 1)
  {
  }

  /** A part found at `st` in `rt` is found `|x|` further on in `x + rt`. */
  lemma ShiftedPart(x: string, rt: string, st: nat, part: string)
    requires st + |part| <= |rt| && rt[st..st + |part|] == part
    ensures |x| + st + |part| <= |x + rt| && (x + rt)[|x| + st..|x| + st + |part|] == part
  {
    SliceOfConcat(x, rt, st, st + |part|);
  }

  /** The separator follows every part but the last. */
  lemma {:induction false} JoinSeparator(parts: seq<string>, sep: string, k: nat)
    requires k + 1 < |parts|
    ensures SepAfter(parts, sep, Join(parts, sep), k)
    decreases k
  {
    var rt := Join(parts[1..], sep);
    JoinCons(parts, sep);
    if k > 0 {
      JoinSeparator(parts[1..], sep, k - 1);
      TailPartEnd(parts, |sep|, k - 1);
      ShiftIn(parts[0] + sep, rt, PartEnd(parts[1..], |sep|, k - 1), PartEnd(parts, |sep|, k), sep);
    } else {
      SliceOfConcat(parts[0], sep + rt, 0, |sep|);
      assert (parts[0] + sep) + rt == parts[0] + (sep + rt);
    }
  }

  /** What sits at `a` in `rt` sits at `|x| + a` in `x + rt`. */
  lemma ShiftIn(x: string, rt: string, a: nat, b: nat, y: string)
    requires b == |x| + a && SliceIs(rt, a, y)
    ensures SliceIs(x + rt, b, y)
  {
    SliceOfConcat(x, rt, a, a + |y|);
  }

  /** Nothing follows the last part. */
  lemma {:induction false} JoinLength(parts: seq<string>, sep: string)
    requires |parts| > 0
    ensures |Join(parts, sep)| == PartStart(parts, |sep|, |parts| - 1) + |parts[|parts| - 1]|
    decreases |parts|
  {
    if |parts| > 1 {
      JoinLength(parts[1..], sep);
    }
  }

  /** `x` appears verbatim in `r` at index `at`. */
  predicate SliceIs(r: string, at: nat, x: string) {
    at + |x| <= |r| && r[at..at + |x|] == x
  }

  /** Part `k` appears verbatim in `r` at its `PartStart`. */
  predicate PartAt(parts: seq<string>, sep: string, r: string, k: nat)
    requires k < |parts|
  {
    SliceIs(r, PartStart(parts, |sep|, k), parts[k])
  }

  /** Where part `k` ends in `Join(parts, sep)` when `|sep| == sepLen`. */
  function PartEnd(parts: seq<string>, sepLen: nat, k: nat): nat
    requires k < |parts|
  {
    PartStart(parts, sepLen, k) + |parts[k]|
  }

  /** `sep` follows part `k` in `r`. */
  predicate SepAfter(parts: seq<string>, sep: string, r: string, k: nat)
    requires k < |parts|
  {
    SliceIs(r, PartEnd(parts, |sep|, k), sep)
  }

  /** Every part appears verbatim in the joined string, at its `PartStart`. */
  lemma JoinParts(parts: seq<string>, sep: string)
    ensures forall k :: 0 <= k < |parts| ==> PartAt(parts, sep, Join(parts, sep), k)
  {
    forall k | 0 <= k < |parts| ensures PartAt(parts, sep, Join(parts, sep), k) {
      JoinPart(parts, sep, k);
    }
  }

  /** One separator follows every part but the last. */
  lemma JoinSeparators(parts: seq<string>, sep: string)
    ensures forall k :: 0 <= k < |parts| - 1 ==> SepAfter(parts, sep, Join(parts, sep), k)
  {
    forall k | 0 <= k < |parts| - 1 ensures SepAfter(parts, sep, Join(parts, sep), k) {
      JoinSeparator(parts, sep, k);
    }
  }

  /** `r` lays out `parts` in order, each verbatim at its `PartStart`, with
      `sep` between neighbours and nothing before the first part or after
      the last one. */
  predicate JoinLayout(parts: seq<string>, sep: string, r: string) {
    && (parts == [] ==> r == [])
    && (parts != [] ==> |r| == PartStart(parts, |sep|, |parts| - 1) + |parts[|parts| - 1]|)
    && (forall k :: 0 <= k < |parts| ==> PartAt(parts, sep, r, k))
    && (forall k :: 0 <= k < |parts| - 1 ==> SepAfter(parts, sep, r, k))
  }

  /** `Join` produces that layout. */
  lemma JoinHasLayout(parts: seq<string>, sep: string)
    ensures JoinLayout(parts, sep, Join(parts, sep))
  {
    if parts != [] {
      JoinLength(parts, sep);
    }
    JoinParts(parts, sep);
    JoinSeparators(parts, sep);
  }

  /** The layout determines the string: `Join` is the only string with it. */
  lemma {:induction false} LayoutIsJoin(parts: seq<string>, sep: string, r: string)
    requires JoinLayout(parts, sep, r)
    ensures r == Join(parts, sep)
    decreases |parts|
  {
    if |parts| == 1 {
      assert PartAt(parts, sep, r, 0);
    } else if |parts| > 1 {
      var d := |parts[0]| + |sep|;
      LayoutTail(parts, sep, r);
      LayoutIsJoin(parts[1..], sep, r[d..]);
      JoinCons(parts, sep);
      ThreeSlices(r, |parts[0]|, d);
    }
  }

  /** Past the first part and separator, `r` lays out the remaining parts. */
  lemma LayoutTail(parts: seq<string>, sep: string, r: string)
    requires |parts| > 1 && JoinLayout(parts, sep, r)
    ensures |parts[0]| + |sep| <= |r|
    ensures r[..|parts[0]|] == parts[0] && r[|parts[0]|..|parts[0]| + |sep|] == sep
    ensures JoinLayout(parts[1..], sep, r[|parts[0]| + |sep|..])
  {
    var d := |parts[0]| + |sep|;
    assert PartAt(parts, sep, r, 0) && SepAfter(parts, sep, r, 0);
    JoinCons(parts, sep);
    var tail := r[d..];
    forall k | 0 <= k < |parts| - 1 ensures PartAt(parts[1..], sep, tail, k) {
      assert PartAt(parts, sep, r, k + 1);
      TailPartAt(parts, sep, r, k);
    }
    forall k | 0 <= k < |parts| - 2 ensures SepAfter(parts[1..], sep, tail, k) {
      assert SepAfter(parts, sep, r, k + 1);
      TailSepAfter(parts, sep, r, k);
    }
  }

  lemma TailPartAt(parts: seq<string>, sep: string, r: string, k: nat)
    requires k + 1 < |parts| && PartAt(parts, sep, r, k + 1)
    requires PartStart(parts, |sep|, k + 1) == |parts[0]| + |sep| + PartStart(parts[1..], |sep|, k)
    ensures PartAt(parts[1..], sep, r[|parts[0]| + |sep|..], k)
  {
    assert parts[1..][k] == parts[k + 1];
    ShiftSlice(r, |parts[0]| + |sep|, PartStart(parts[1..], |sep|, k), PartStart(parts, |sep|, k + 1), parts[k + 1]);
  }

  lemma TailSepAfter(parts: seq<string>, sep: string, r: string, k: nat)
    requires k + 1 < |parts| && SepAfter(parts, sep, r, k + 1)
    requires PartStart(parts, |sep|, k + 1) == |parts[0]| + |sep| + PartStart(parts[1..], |sep|, k)
    ensures SepAfter(parts[1..], sep, r[|parts[0]| + |sep|..], k)
  {
    var b := PartEnd(parts, |sep|, k + 1);
    TailPartEnd(parts, |sep|, k);
    assert SliceIs(r, b, sep);
    ShiftSlice(r, |parts[0]| + |sep|, PartEnd(parts[1..], |sep|, k), b, sep);
  }

  lemma TailPartEnd(parts: seq<string>, sepLen: nat, k: nat)
    requires k + 1 < |parts|
    requires PartStart(parts, sepLen, k + 1) == |parts[0]| + sepLen + PartStart(parts[1..], sepLen, k)
    ensures PartEnd(parts, sepLen, k + 1) == |parts[0]| + sepLen + PartEnd(parts[1..], sepLen, k)
  {
    assert parts[1..][k] == parts[k + 1];
  }

  /** What sits at `d + a` in `r` sits at `a` in `r[d..]`. */
  lemma ShiftSlice(r: string, d: nat, a: nat, b: nat, x: string)
    requires b == d + a <= |r| && SliceIs(r, b, x)
    ensures SliceIs(r[d..], a, x)
  {
    SliceInSuffix(r, d, a, a + |x|);
  }

  /** A slice of a suffix is a slice of the whole. */
  lemma SliceInSuffix<T>(s: seq<T>, d: nat, a: nat, b: nat)
    requires d + b <= |s| && a <= b
    ensures s[d..][a..b] == s[d + a..d + b]
  {
  }

  /** Joining with whitespace adds no visible character. */
  lemma {:induction false} JoinNonBlank(parts: seq<string>, sep: string)
    requires AllSpace(sep)
    ensures NonBlank(Join(parts, sep)) == NonBlankAll(parts)
    decreases |parts|
  {
    if |parts| == 1 {
      assert parts[1..] == [];
    } else if |parts| > 1 {
      JoinNonBlank(parts[1..], sep);
      NonBlankConcat(parts[0] + sep, Join(parts[1..], sep));
      NonBlankConcat(parts[0], sep);
      NonBlankEmpty(sep);
    }
  }

  /** Index of the first `c` in `s`, or `|s|` when there is none. */
  function FindChar(s: string, c: char): (i: nat)
    ensures i <= |s|
    ensures forall j :: 0 <= j < i ==> s[j] != c
    ensures i < |s| ==> s[i] == c
    decreases |s|
  {
    if s == [] || s[0] == c then 0 else 1 + FindChar(s[1..], c)
  }

  /** The first `c` of `s` is at `i`. */
  lemma FindCharAt(s: string, c: char, i: nat)
    requires i < |s| && s[i] == c && forall j :: 0 <= j < i ==> s[j] != c
    ensures FindChar(s, c) == i
  {
  }

  /** Python's `s.split(c)` for a one-character separator. */
  function Split(s: string, c: char): (r: seq<string>)
    ensures |r| >= 1
    ensures forall k :: 0 <= k < |r| ==> c !in r[k]
    decreases |s|
  {
    var i := FindChar(s, c);
    if i == |s| then [s] else [s[..i]] + Split(s[i + 1..], c)
  }

  /** Splitting on `c` undoes joining with `c` when no part contains `c`. */
  lemma {:induction false} SplitJoin(parts: seq<string>, c: char)
    requires |parts| >= 1
    requires forall k :: 0 <= k < |parts| ==> c !in parts[k]
    ensures Split(Join(parts, [c]), c) == parts
    decreases |parts|
  {
    var s := Join(parts, [c]);
    var p := parts[0];
    if |parts| == 1 {
      assert FindChar(p, c) == |p|;
    } else {
      var rest := Join(parts[1..], [c]);
      assert s == p + [c] + rest;
      FindCharAt(s, c, |p|) by {
        assert forall j :: 0 <= j < |p| ==> s[j] == p[j];
      }
      assert s[..|p|] == p;
      assert s[|p| + 1..] == rest;
      assert Split(s, c) == [p] + Split(rest, c);
      SplitJoin(parts[1..], c);
      assert parts == [p] + parts[1..];
    }
  }

  /** Joining with `c` undoes splitting on `c`. */
  lemma {:induction false} JoinSplit(s: string, c: char)
    ensures Join(Split(s, c), [c]) == s
    decreases |s|
  {
    var i := FindChar(s, c);
    var parts := Split(s, c);
    if i < |s| {
      var tail := Split(s[i + 1..], c);
      assert parts == [s[..i]] + tail;
      JoinFront(s[..i], tail, [c]);
      JoinSplit(s[i + 1..], c);
      CharSlices(s, i, c);
    } else {
      assert parts == [s];
    }
  }

  /** A string around the character at `i`. */
  lemma CharSlices(s: string, i: nat, c: char)
    requires i < |s| && s[i] == c
    ensures s == s[..i] + [c] + s[i + 1..]
  {
    assert s[i..i + 1] == [c];
    ThreeSlices(s, i, i + 1);
  }

  /** Index of the first double space of `s`, or `|s|` when there is none. */
  function FindDoubleSpace(s: string): (i: nat)
    ensures i <= |s|
    ensures forall j :: 0 <= j < i ==> !DoubleSpaceAt(s, j)
    ensures i < |s| ==> DoubleSpaceAt(s, i)
    decreases |s|
  {
    if |s| < 2 then |s|
    else if s[0] == ' ' && s[1] == ' ' then 0
    else
      var i := 1 + FindDoubleSpace(s[1..]);
      assert forall j :: 1 <= j < |s| ==> (DoubleSpaceAt(s, j) <==> DoubleSpaceAt(s[1..], j - 1));
      i
  }

  /** Python's `s.split("  ")`: the pieces between non-overlapping double
      spaces, taken from the left. */
  function SplitDoubleSpace(s: string): (r: seq<string>)
    ensures |r| >= 1
    ensures forall k :: 0 <= k < |r| ==> !HasDoubleSpace(r[k])
    ensures NoLineBreak(s) ==> forall k :: 0 <= k < |r| ==> NoLineBreak(r[k])
    ensures NonBlankAll(r) == NonBlank(s)
    ensures Join(r, "  ") == s
    ensures LeftmostCuts(r)
    decreases |s|
  {
    var i := FindDoubleSpace(s);
    if i == |s| then
      assert !HasDoubleSpace(s);
      assert NonBlankAll([s]) == NonBlank(s) + NonBlankAll([]);
      [s]
    else
      var rest := SplitDoubleSpace(s[i + 2..]);
      SplitAtDoubleSpace(s, i, rest);
      LeftmostStep(s, i, rest);
      [s[..i]] + rest
  }

  /** No piece but the last ends with a space: the double space that
      follows a piece is the leftmost one after the previous cut. */
  predicate LeftmostCuts(r: seq<string>) {
    forall k :: 0 <= k < |r| - 1 ==> r[k] == [] || r[k][|r[k]| - 1] != ' '
  }

  /** The piece before the first double space does not end with a space. */
  lemma LeftmostStep(s: string, i: nat, rest: seq<string>)
    requires i == FindDoubleSpace(s) < |s| && LeftmostCuts(rest)
    ensures LeftmostCuts([s[..i]] + rest)
  {
    if i > 0 {
      assert !DoubleSpaceAt(s, i - 1);
      assert s[..i][i - 1] == s[i - 1];
    }
    LeftmostCons(s[..i], rest);
  }

  lemma LeftmostCons(head: string, rest: seq<string>)
    requires head == [] || head[|head| - 1] != ' '
    requires LeftmostCuts(rest)
    ensures LeftmostCuts([head] + rest)
  {
    var r := [head] + rest;
    forall k | 1 <= k < |r| - 1 ensures r[k] == [] || r[k][|r[k]| - 1] != ' ' {
      assert r[k] == rest[k - 1];
    }
  }

  /** The pieces of `s` are the piece before its first double space and the
      pieces after that double space. */
  lemma SplitAtDoubleSpace(s: string, i: nat, rest: seq<string>)
    requires i == FindDoubleSpace(s) < |s|
    requires |rest| >= 1
    requires forall k :: 0 <= k < |rest| ==> !HasDoubleSpace(rest[k])
    requires NoLineBreak(s[i + 2..]) ==> forall k :: 0 <= k < |rest| ==> NoLineBreak(rest[k])
    requires NonBlankAll(rest) == NonBlank(s[i + 2..])
    requires Join(rest, "  ") == s[i + 2..]
    ensures forall k :: 0 <= k < |[s[..i]] + rest| ==> !HasDoubleSpace(([s[..i]] + rest)[k])
    ensures NoLineBreak(s) ==> forall k :: 0 <= k < |[s[..i]] + rest| ==> NoLineBreak(([s[..i]] + rest)[k])
    ensures NonBlankAll([s[..i]] + rest) == NonBlank(s)
    ensures Join([s[..i]] + rest, "  ") == s
  {
    PiecesShape(s, i, rest);
    NonBlankAround(s, i, i + 2);
    PiecesCons(s[..i], rest);
    JoinAtDoubleSpace(s, i, rest);
  }

  /** No piece has a double space or, when `s` has none, a line break. */
  lemma PiecesShape(s: string, i: nat, rest: seq<string>)
    requires i == FindDoubleSpace(s) < |s|
    requires forall k :: 0 <= k < |rest| ==> !HasDoubleSpace(rest[k])
    requires NoLineBreak(s[i + 2..]) ==> forall k :: 0 <= k < |rest| ==> NoLineBreak(rest[k])
    ensures forall k :: 0 <= k < |[s[..i]] + rest| ==> !HasDoubleSpace(([s[..i]] + rest)[k])
    ensures NoLineBreak(s) ==> forall k :: 0 <= k < |[s[..i]] + rest| ==> NoLineBreak(([s[..i]] + rest)[k])
  {
    PrefixNoDoubleSpace(s, i);
    AroundNoLineBreak(s, i, i + 2);
    PiecesCons(s[..i], rest);
  }

  /** Joining the piece before the double space at `i` to the pieces after
      it gives back the string. */
  lemma JoinAtDoubleSpace(s: string, i: nat, rest: seq<string>)
    requires DoubleSpaceAt(s, i) && |rest| >= 1 && Join(rest, "  ") == s[i + 2..]
    ensures Join([s[..i]] + rest, "  ") == s
  {
    JoinFront(s[..i], rest, "  ");
    DoubleSpaceSlices(s, i);
  }

  /** A string around a double space. */
  lemma DoubleSpaceSlices(s: string, i: nat)
    requires DoubleSpaceAt(s, i)
    ensures s == s[..i] + "  " + s[i + 2..]
  {
    assert s[i..i + 2] == "  ";
    ThreeSlices(s, i, i + 2);
  }

  /** Joining a first part in front of at least one more. */
  lemma JoinFront(head: string, rest: seq<string>, sep: string)
    requires |rest| >= 1
    ensures Join([head] + rest, sep) == head + sep + Join(rest, sep)
  {
    assert ([head] + rest)[1..] == rest;
  }

  lemma AroundNoLineBreak(s: string, i: nat, j: nat)
    requires i <= j <= |s|
    ensures NoLineBreak(s) ==> NoLineBreak(s[..i]) && NoLineBreak(s[j..])
  {
    if NoLineBreak(s) {
      NoLineBreakSlice(s, 0, i);
      NoLineBreakSlice(s, j, |s|);
      assert s[0..i] == s[..i] && s[j..|s|] == s[j..];
    }
  }

  lemma PrefixNoDoubleSpace(s: string, i: nat)
    requires i <= |s| && forall j :: 0 <= j < i ==> !DoubleSpaceAt(s, j)
    ensures !HasDoubleSpace(s[..i])
  {
    forall j | 0 <= j < i ensures !DoubleSpaceAt(s[..i], j) {
      if j + 1 < i {
        assert s[..i][j] == s[j] && s[..i][j + 1] == s[j + 1];
        assert !DoubleSpaceAt(s, j);
      }
    }
  }

  /** Prepending a piece to a sequence of pieces. */
  lemma PiecesCons(head: string, rest: seq<string>)
    ensures forall k :: 1 <= k < |[head] + rest| ==> ([head] + rest)[k] == rest[k - 1]
    ensures ([head] + rest)[0] == head
    ensures NonBlankAll([head] + rest) == NonBlank(head) + NonBlankAll(rest)
  {
    assert ([head] + rest)[1..] == rest;
  }

  /** Index of the first line boundary of `s`, or `|s|` when there is none. */
  function FindLineBreak(s: string): (i: nat)
    ensures i <= |s|
    ensures forall j :: 0 <= j < i ==> !IsLineBreak(s[j])
    ensures i < |s| ==> IsLineBreak(s[i])
    decreases |s|
  {
    if s == [] || IsLineBreak(s[0]) then 0 else 1 + FindLineBreak(s[1..])
  }

  /** Where the line boundary at `i` ends: `"\r\n"` is one boundary. */
  function BreakEnd(s: string, i: nat): (j: nat)
    requires i < |s|
    ensures i < j <= |s| && j <= i + 2
    ensures j == i + 2 <==> s[i] == '\r' && i + 1 < |s| && s[i + 1] == '\n'
  {
    if s[i] == '\r' && i + 1 < |s| && s[i + 1] == '\n' then i + 2 else i + 1
  }

  /** Python's `s.splitlines()`: the lines of `s` without their line
      boundaries; `"\r\n"` is one boundary, and a final boundary does not
      open an empty last line. */
  function SplitLines(s: string): (r: seq<string>)
    ensures forall k :: 0 <= k < |r| ==> NoLineBreak(r[k])
    ensures NonBlankAll(r) == NonBlank(s)
    ensures LinesOf(s, r, LineEnds(s))
    decreases |s|
  {
    if s == [] then []
    else
      var i := FindLineBreak(s);
      if i == |s| then
        assert NonBlankAll([s]) == NonBlank(s) + NonBlankAll([]);
        LastLine(s);
        [s]
      else
        var j := BreakEnd(s, i);
        var head, rest := s[..i], SplitLines(s[j..]);
        PrefixNoLineBreak(s, i);
        BreakIsSpace(s, i, j);
        NonBlankAround(s, i, j);
        LinesCons(head, rest);
        assert LineEnds(s) == [s[i..j]] + LineEnds(s[j..]);
        LinesStep(s, i, j, rest, LineEnds(s[j..]));
        [head] + rest
  }

  /** The boundary that ends each line of `SplitLines(s)`, and `""` after a
      last line that runs to the end of `s`. */
  function LineEnds(s: string): seq<string>
    decreases |s|
  {
    if s == [] then []
    else
      var i := FindLineBreak(s);
      if i == |s| then [""]
      else
        var j := BreakEnd(s, i);
        [s[i..j]] + LineEnds(s[j..])
  }

  /** A line boundary of `str.splitlines()`: `"\r\n"` or one boundary
      character. */
  predicate IsBoundary(b: string) {
    b == "\r\n" || (|b| == 1 && IsLineBreak(b[0]))
  }

  /** The lines, each followed by its boundary, one after the other. */
  function Unsplit(lines: seq<string>, ends: seq<string>): string
    requires |lines| == |ends|
    decreases |lines|
  {
    if lines == [] then [] else lines[0] + ends[0] + Unsplit(lines[1..], ends[1..])
  }

  /** Every line is followed by a boundary, except that the last line may
      run to the end of the string without one. */
  predicate EndsFit(lines: seq<string>, ends: seq<string>) {
    |lines| == |ends| && forall k :: 0 <= k < |ends| ==> IsBoundary(ends[k]) || (k == |ends| - 1 && ends[k] == [])
  }

  /** `lines` and their boundaries `ends` are what `str.splitlines()` makes
      of `s`: together they spell `s` out; no line holds a boundary
      character; a `"\r"` boundary is never directly followed by `"\n"`,
      as the two would make one boundary; and a final boundary does not
      leave an empty last line behind. */
  predicate LinesOf(s: string, lines: seq<string>, ends: seq<string>) {
    && EndsFit(lines, ends)
    && Unsplit(lines, ends) == s
    && (forall k :: 0 <= k < |lines| ==> NoLineBreak(lines[k]))
    && (forall k :: 0 <= k < |lines| - 1 ==> !(ends[k] == "\r" && lines[k + 1] == [] && ends[k + 1] == "\n"))
    && (lines != [] ==> lines[|lines| - 1] != [] || ends[|ends| - 1] != [])
  }

  /** A string without boundaries is one line. */
  lemma LastLine(s: string)
    requires s != [] && FindLineBreak(s) == |s|
    ensures LinesOf(s, [s], [""])
  {
    assert Unsplit([s], [""]) == s + "" + Unsplit([], []);
    assert NoLineBreak(s);
  }

  /** The first line and its boundary in front of the lines of the rest. */
  lemma LinesStep(s: string, i: nat, j: nat, rest: seq<string>, ends: seq<string>)
    requires i == FindLineBreak(s) < |s| && j == BreakEnd(s, i)
    requires LinesOf(s[j..], rest, ends)
    ensures LinesOf(s, [s[..i]] + rest, [s[i..j]] + ends)
  {
    var ls, es := [s[..i]] + rest, [s[i..j]] + ends;
    StepEndsFit(s, i, j, rest, ends);
    StepUnsplit(s, i, j, rest, ends);
    PrefixNoLineBreak(s, i);
    LinesCons(s[..i], rest);
    StepNotSplitCrLf(s, i, j, rest, ends);
    assert ls[|ls| - 1] == if rest == [] then s[..i] else rest[|rest| - 1];
    assert es[|es| - 1] == if rest == [] then s[i..j] else ends[|ends| - 1];
  }

  lemma StepEndsFit(s: string, i: nat, j: nat, rest: seq<string>, ends: seq<string>)
    requires i == FindLineBreak(s) < |s| && j == BreakEnd(s, i)
    requires EndsFit(rest, ends)
    ensures EndsFit([s[..i]] + rest, [s[i..j]] + ends)
  {
    BoundaryAt(s, i, j);
    EndsFitCons(s[..i], s[i..j], rest, ends);
  }

  /** The boundary at a boundary character. */
  lemma BoundaryAt(s: string, i: nat, j: nat)
    requires i < |s| && IsLineBreak(s[i]) && j == BreakEnd(s, i)
    ensures IsBoundary(s[i..j])
  {
    if j == i + 2 {
      assert s[i..j] == [s[i], s[i + 1]];
    } else {
      assert s[i..j] == [s[i]];
    }
  }

  lemma EndsFitCons(line: string, b: string, rest: seq<string>, ends: seq<string>)
    requires IsBoundary(b) && EndsFit(rest, ends)
    ensures EndsFit([line] + rest, [b] + ends)
  {
    var es := [b] + ends;
    forall k | 1 <= k < |es| ensures IsBoundary(es[k]) || (k == |es| - 1 && es[k] == []) {
      assert es[k] == ends[k - 1];
    }
  }

  lemma StepUnsplit(s: string, i: nat, j: nat, rest: seq<string>, ends: seq<string>)
    requires i < j <= |s| && |rest| == |ends| && Unsplit(rest, ends) == s[j..]
    ensures Unsplit([s[..i]] + rest, [s[i..j]] + ends) == s
  {
    var ls, es := [s[..i]] + rest, [s[i..j]] + ends;
    assert ls[1..] == rest && es[1..] == ends;
    ThreeSlices(s, i, j);
  }

  /** A `"\r"` boundary cut from `s` is not followed by a `"\n"` in `s`. */
  lemma StepNotSplitCrLf(s: string, i: nat, j: nat, rest: seq<string>, ends: seq<string>)
    requires i == FindLineBreak(s) < |s| && j == BreakEnd(s, i)
    requires |rest| == |ends| && Unsplit(rest, ends) == s[j..]
    requires forall k :: 0 <= k < |rest| - 1 ==> !(ends[k] == "\r" && rest[k + 1] == [] && ends[k + 1] == "\n")
    ensures var ls, es := [s[..i]] + rest, [s[i..j]] + ends;
      forall k :: 0 <= k < |ls| - 1 ==> !(es[k] == "\r" && ls[k + 1] == [] && es[k + 1] == "\n")
  {
    var ls, es := [s[..i]] + rest, [s[i..j]] + ends;
    forall k | 1 <= k < |ls| - 1 ensures !(es[k] == "\r" && ls[k + 1] == [] && es[k + 1] == "\n") {
      assert es[k] == ends[k - 1] && ls[k + 1] == rest[k] && es[k + 1] == ends[k];
    }
    if rest != [] && rest[0] == [] && ends[0] == "\n" {
      assert Unsplit(rest, ends) == rest[0] + ends[0] + Unsplit(rest[1..], ends[1..]);
      assert s[j..][0] == '\n';
      assert j < |s| && s[j] == '\n' && |s[i..j]| == j - i && s[i..j][0] == s[i];
      assert s[i..j] != "\r";
    }
  }

  lemma PrefixNoLineBreak(s: string, i: nat)
    requires i <= |s| && forall j :: 0 <= j < i ==> !IsLineBreak(s[j])
    ensures NoLineBreak(s[..i])
  {
    forall m | 0 <= m < i ensures !IsLineBreak(s[..i][m]) {
      assert s[..i][m] == s[m];
    }
  }

  /** A line boundary, `"\r\n"` included, is whitespace. */
  lemma BreakIsSpace(s: string, i: nat, j: nat)
    requires i < j <= |s| && j <= i + 2 && IsLineBreak(s[i])
    requires j == i + 2 ==> s[i + 1] == '\n'
    ensures AllSpace(s[i..j])
  {
    forall m | 0 <= m < j - i ensures IsSpace(s[i..j][m]) {
      assert s[i..j][m] == s[i + m];
    }
  }

  /** Prepending a line to a sequence of lines. */
  lemma LinesCons(head: string, rest: seq<string>)
    requires NoLineBreak(head) && forall k :: 0 <= k < |rest| ==> NoLineBreak(rest[k])
    ensures forall k :: 0 <= k < |[head] + rest| ==> NoLineBreak(([head] + rest)[k])
    ensures NonBlankAll([head] + rest) == NonBlank(head) + NonBlankAll(rest)
  {
    assert ([head] + rest)[0] == head && ([head] + rest)[1..] == rest;
    forall k | 1 <= k < |[head] + rest| ensures NoLineBreak(([head] + rest)[k]) {
      assert ([head] + rest)[k] == rest[k - 1];
    }
  }
}

=== FILE: ranking.dfy ===
/** The ranking step of `main`: drop the pages whose summary is the
    sentinel, score the others by the length of their summary, sort them
    stably by descending score, keep the first three and join their
    summaries into the context handed to the answering model. */
module Ranking {
  import opened PyStr
  import opened Summary
  import opened Scrape

  /** A relevant website with its summary and relevance score. */
  datatype Scored = Scored(url: string, title: string, summary: string, score: nat)

  /** How many of the ranked websites are kept. */
  const TopCount := 3

  /** The record `main` appends for a website and its summary. */
  function Entry(site: Website, summary: string): (e: Scored)
    ensures e.url == site.url && e.title == site.title
    ensures e.summary == summary && e.score == |summary|
  {
    Scored(site.url, site.title, summary, |summary|)
  }

  function CountSentinel(summaries: seq<string>): nat
    decreases |summaries|
  {
    if summaries == [] then 0
    else (if summaries[0] == Sentinel then 1 else 0) + CountSentinel(summaries[1..])
  }

  /** At most every summary is the sentinel, and all of them are exactly
      when the count says so. */
  lemma {:induction false} CountSentinelAll(summaries: seq<string>)
    ensures CountSentinel(summaries) <= |summaries|
    ensures CountSentinel(summaries) == |summaries| <==> forall i :: 0 <= i < |summaries| ==> summaries[i] == Sentinel
    decreases |summaries|
  {
    if summaries != [] {
      var t := summaries[1..];
      CountSentinelAll(t);
      assert forall i :: 1 <= i < |summaries| ==> summaries[i] == t[i - 1];
    }
  }

  /** The positions of the summaries that are not the sentinel, in
      increasing order. */
  function KeptAt(summaries: seq<string>): (idx: seq<nat>)
    ensures |idx| == |summaries| - CountSentinel(summaries)
    ensures KeptIn(summaries, idx) && Increasing(idx)
    ensures forall i :: 0 <= i < |summaries| && summaries[i] != Sentinel ==> i in idx
    decreases |summaries|
  {
    if summaries == [] then []
    else
      var rest := KeptAt(summaries[1..]);
      var idx := (if summaries[0] == Sentinel then [] else [0]) + Shift(rest);
      KeptInStep(summaries, rest, idx);
      IncreasingStep(summaries[0] == Sentinel, rest, idx);
      KeptAllStep(summaries, rest, idx);
      idx
  }

  /** Each position holds a summary that is not the sentinel. */
  predicate KeptIn(summaries: seq<string>, idx: seq<nat>) {
    forall k :: 0 <= k < |idx| ==> idx[k] < |summaries| && summaries[idx[k]] != Sentinel
  }

  predicate Increasing(idx: seq<nat>) {
    forall k, l :: 0 <= k < l < |idx| ==> idx[k] < idx[l]
  }

  /** Every position moved one place on. */
  function Shift(idx: seq<nat>): (r: seq<nat>)
    ensures |r| == |idx| && forall k :: 0 <= k < |idx| ==> r[k] == idx[k] + 1
  {
    seq(|idx|, k requires 0 <= k < |idx| => idx[k] + 1)
  }

  lemma KeptInStep(summaries: seq<string>, rest: seq<nat>, idx: seq<nat>)
    requires summaries != [] && KeptIn(summaries[1..], rest)
    requires idx == (if summaries[0] == Sentinel then [] else [0]) + Shift(rest)
    ensures KeptIn(summaries, idx)
  {
    var d := if summaries[0] == Sentinel then 0 else 1;
    forall k | 0 <= k < |idx| ensures idx[k] < |summaries| && summaries[idx[k]] != Sentinel {
      if k >= d {
        assert idx[k] == rest[k - d] + 1;
        assert summaries[1..][rest[k - d]] == summaries[idx[k]];
      }
    }
  }

  lemma IncreasingStep(dropped: bool, rest: seq<nat>, idx: seq<nat>)
    requires Increasing(rest)
    requires idx == (if dropped then [] else [0]) + Shift(rest)
    ensures Increasing(idx)
  {
    var d := if dropped then 0 else 1;
    forall k, l | 0 <= k < l < |idx| ensures idx[k] < idx[l] {
      assert idx[l] == rest[l - d] + 1;
      if k >= d {
        assert idx[k] == rest[k - d] + 1;
      }
    }
  }

  lemma KeptAllStep(summaries: seq<string>, rest: seq<nat>, idx: seq<nat>)
    requires summaries != []
    requires forall i :: 0 <= i < |summaries[1..]| && summaries[1..][i] != Sentinel ==> i in rest
    requires idx == (if summaries[0] == Sentinel then [] else [0]) + Shift(rest)
    ensures forall i :: 0 <= i < |summaries| && summaries[i] != Sentinel ==> i in idx
  {
    var d := if summaries[0] == Sentinel then 0 else 1;
    forall i | 0 <= i < |summaries| && summaries[i] != Sentinel ensures i in idx {
      if i > 0 {
        assert summaries[1..][i - 1] == summaries[i];
        var k :| 0 <= k < |rest| && rest[k] == i - 1;
        assert idx[k + d] == i;
      }
    }
  }

  /** The entry `main` builds for each kept position, in order. */
  predicate EntriesAt(sites: seq<Website>, summaries: seq<string>, idx: seq<nat>, r: seq<Scored>)
    requires |summaries| == |sites| && KeptIn(summaries, idx)
  {
    |r| == |idx| && forall k :: 0 <= k < |r| ==> r[k] == Entry(sites[idx[k]], summaries[idx[k]])
  }

  /** The filtering loop of `main`: one entry per website whose summary is
      not the sentinel, in the websites' order, scored by summary length. */
  function Relevant(sites: seq<Website>, summaries: seq<string>): (r: seq<Scored>)
    requires |summaries| == |sites|
    ensures |r| == |sites| - CountSentinel(summaries)
    ensures EntriesAt(sites, summaries, KeptAt(summaries), r)
    ensures forall k :: 0 <= k < |r| ==>
      r[k].summary != Sentinel && r[k].summary in summaries && r[k].score == |r[k].summary|
    ensures forall i :: 0 <= i < |sites| && summaries[i] != Sentinel ==> Entry(sites[i], summaries[i]) in r
    decreases |sites|
  {
    if sites == [] then []
    else
      var rest := Relevant(sites[1..], summaries[1..]);
      var r := if summaries[0] == Sentinel then rest else [Entry(sites[0], summaries[0])] + rest;
      RelevantStep(sites, summaries, KeptAt(summaries[1..]), rest, KeptAt(summaries), r);
      RelevantFacts(sites, summaries, KeptAt(summaries), r);
      r
  }

  /** One website more in front of the filtering loop. */
  lemma RelevantStep(sites: seq<Website>, summaries: seq<string>, tail: seq<nat>, rest: seq<Scored>, idx: seq<nat>, r: seq<Scored>)
    requires |summaries| == |sites| > 0 && KeptIn(summaries[1..], tail) && KeptIn(summaries, idx)
    requires idx == (if summaries[0] == Sentinel then [] else [0]) + Shift(tail)
    requires EntriesAt(sites[1..], summaries[1..], tail, rest)
    requires r == if summaries[0] == Sentinel then rest else [Entry(sites[0], summaries[0])] + rest
    ensures EntriesAt(sites, summaries, idx, r)
  {
    var d := if summaries[0] == Sentinel then 0 else 1;
    forall k | 0 <= k < |r| ensures r[k] == Entry(sites[idx[k]], summaries[idx[k]]) {
      if k >= d {
        assert r[k] == rest[k - d] && idx[k] == tail[k - d] + 1;
        assert sites[1..][tail[k - d]] == sites[idx[k]] && summaries[1..][tail[k - d]] == summaries[idx[k]];
      }
    }
  }

  /** What the positions say about the entries. */
  lemma RelevantFacts(sites: seq<Website>, summaries: seq<string>, idx: seq<nat>, r: seq<Scored>)
    requires |summaries| == |sites| && KeptIn(summaries, idx)
    requires forall i :: 0 <= i < |summaries| && summaries[i] != Sentinel ==> i in idx
    requires EntriesAt(sites, summaries, idx, r)
    ensures forall k :: 0 <= k < |r| ==>
      r[k].summary != Sentinel && r[k].summary in summaries && r[k].score == |r[k].summary|
    ensures forall i :: 0 <= i < |sites| && summaries[i] != Sentinel ==> Entry(sites[i], summaries[i]) in r
  {
    forall i | 0 <= i < |sites| && summaries[i] != Sentinel ensures Entry(sites[i], summaries[i]) in r {
      var k :| 0 <= k < |idx| && idx[k] == i;
      assert r[k] == Entry(sites[i], summaries[i]);
    }
  }

  // ---------------------------------------------------------------------
  // Stable sort by descending score

  predicate NonIncreasing(s: seq<Scored>) {
    forall i, j :: 0 <= i < j < |s| ==> s[i].score >= s[j].score
  }

  /** The entries of `s` that have score `v`, in their order in `s`. A sort
      is stable exactly when it leaves each of these unchanged. */
  function WithScore(s: seq<Scored>, v: nat): seq<Scored>
    decreases |s|
  {
    if s == [] then [] else Keep(s[0], v) + WithScore(s[1..], v)
  }

  /** `e` alone if it has score `v`, nothing otherwise. */
  function Keep(e: Scored, v: nat): seq<Scored> {
    if e.score == v then [e] else []
  }

  /** `WithScore` of a sequence given by its first entry and the rest. */
  lemma WithScoreCons(h: Scored, tl: seq<Scored>, v: nat)
    ensures WithScore([h] + tl, v) == Keep(h, v) + WithScore(tl, v)
  {
    assert ([h] + tl)[0] == h && ([h] + tl)[1..] == tl;
  }

  /** Entries of different scores never both survive a filter, so they can
      change places in front of it. */
  lemma KeepSwap(a: Scored, b: Scored, v: nat, w: seq<Scored>)
    requires a.score != b.score
    ensures Keep(a, v) + (Keep(b, v) + w) == Keep(b, v) + (Keep(a, v) + w)
  {
    if a.score == v {
      assert Keep(b, v) == [];
    } else {
      assert Keep(a, v) == [];
    }
  }

  lemma {:induction false} WithScoreConcat(a: seq<Scored>, b: seq<Scored>, v: nat)
    ensures WithScore(a + b, v) == WithScore(a, v) + WithScore(b, v)
    decreases |a|
  {
    if a == [] {
      assert a + b == b;
    } else {
      assert (a + b)[1..] == a[1..] + b;
      WithScoreConcat(a[1..], b, v);
    }
  }

  /** Places `x` before the first entry that does not outscore it, so that
      `x` stays ahead of the entries with its own score. */
  function Insert(x: Scored, s: seq<Scored>): (r: seq<Scored>)
    requires NonIncreasing(s)
    ensures NonIncreasing(r)
    ensures |r| == |s| + 1 && (r[0] == x || (s != [] && r[0] == s[0]))
    ensures multiset(r) == multiset(s) + multiset{x}
    decreases |s|
  {
    if s == [] || x.score >= s[0].score then
      ConsNonIncreasing(x, s);
      [x] + s
    else
      NonIncreasingTail(s);
      var rest := Insert(x, s[1..]);
      InsertBehind(x, s, rest);
      [s[0]] + rest
  }

  /** The step of `Insert` that keeps the head of `s` in front. */
  lemma InsertBehind(x: Scored, s: seq<Scored>, rest: seq<Scored>)
    requires NonIncreasing(s) && s != [] && x.score < s[0].score
    requires NonIncreasing(rest) && |rest| == |s| && (rest[0] == x || (|s| > 1 && rest[0] == s[1]))
    requires multiset(rest) == multiset(s[1..]) + multiset{x}
    ensures NonIncreasing([s[0]] + rest)
    ensures multiset([s[0]] + rest) == multiset(s) + multiset{x}
  {
    assert s == [s[0]] + s[1..];
    assert |s| > 1 ==> s[0].score >= s[1].score;
    ConsNonIncreasing(s[0], rest);
  }

  /** An entry that outscores the head of a non-increasing sequence can go
      in front of it. */
  lemma ConsNonIncreasing(h: Scored, r: seq<Scored>)
    requires NonIncreasing(r) && (r != [] ==> h.score >= r[0].score)
    ensures NonIncreasing([h] + r)
  {
    forall i, j | 0 <= i < j < |[h] + r| ensures ([h] + r)[i].score >= ([h] + r)[j].score {
      assert ([h] + r)[j] == r[j - 1];
      if i > 0 {
        assert ([h] + r)[i] == r[i - 1];
      } else {
        assert r[0].score >= r[j - 1].score;
      }
    }
  }

  /** Inserting keeps each per-score order that putting `x` in front would
      give. */
  lemma {:induction false} InsertStable(x: Scored, s: seq<Scored>, v: nat)
    requires NonIncreasing(s)
    ensures WithScore(Insert(x, s), v) == WithScore([x] + s, v)
    decreases |s|
  {
    if s != [] && x.score < s[0].score {
      var t := s[1..];
      var i := Insert(x, t);
      InsertStable(x, t, v);
      assert Insert(x, s) == [s[0]] + i;
      assert s == [s[0]] + t;
      WithScoreCons(s[0], i, v);
      WithScoreCons(x, t, v);
      WithScoreCons(x, s, v);
      WithScoreCons(s[0], t, v);
      KeepSwap(s[0], x, v, WithScore(t, v));
    }
  }

  /** Python's `sorted(..., key=score, reverse=True)`: insertion sort, which
      is stable. */
  function SortByScore(s: seq<Scored>): (r: seq<Scored>)
    ensures NonIncreasing(r)
    ensures multiset(r) == multiset(s)
    ensures forall v :: WithScore(r, v) == WithScore(s, v)
    decreases |s|
  {
    if s == [] then []
    else
      var rest := SortByScore(s[1..]);
      var r := Insert(s[0], rest);
      assert s == [s[0]] + s[1..];
      assert forall v :: WithScore(r, v) == WithScore(s, v) by {
        forall v ensures WithScore(r, v) == WithScore(s, v) {
          InsertStable(s[0], rest, v);
          WithScoreConcat([s[0]], rest, v);
          WithScoreConcat([s[0]], s[1..], v);
        }
      }
      r
  }

  /** In a non-increasing sequence, the first entry outscores every entry. */
  lemma {:induction false} WithScoreBound(s: seq<Scored>, v: nat)
    requires NonIncreasing(s) && WithScore(s, v) != []
    ensures s != [] && s[0].score >= v
    decreases |s|
  {
    if s[0].score != v {
      WithScoreBound(s[1..], v);
    }
  }

  /** The score of a first entry occurs in the sequence. */
  lemma LeadScore(s: seq<Scored>)
    ensures s != [] ==> WithScore(s, s[0].score) != []
  {
  }

  /** A non-increasing order that keeps every per-score order is unique:
      `SortByScore` is the one and only result a stable descending sort may
      return. */
  lemma {:induction false} StableSortUnique(a: seq<Scored>, b: seq<Scored>)
    requires NonIncreasing(a) && NonIncreasing(b)
    requires forall v :: WithScore(a, v) == WithScore(b, v)
    ensures a == b
    decreases |a|
  {
    if a == [] || b == [] {
      LeadScore(a);
      LeadScore(b);
    } else {
      SameHead(a, b);
      SameTails(a, b);
      NonIncreasingTail(a);
      NonIncreasingTail(b);
      StableSortUnique(a[1..], b[1..]);
      assert a == [a[0]] + a[1..];
      assert b == [b[0]] + b[1..];
    }
  }

  /** Two such orders start with the same entry. */
  lemma SameHead(a: seq<Scored>, b: seq<Scored>)
    requires NonIncreasing(a) && NonIncreasing(b) && a != [] && b != []
    requires WithScore(a, a[0].score) == WithScore(b, a[0].score)
    requires WithScore(a, b[0].score) == WithScore(b, b[0].score)
    ensures a[0] == b[0]
  {
    var m := a[0].score;
    LeadScore(a);
    WithScoreBound(b, m);
    LeadScore(b);
    WithScoreBound(a, b[0].score);
    HeadOfWithScore(a);
    HeadOfWithScore(b);
  }

  /** The first entry heads the entries of its own score. */
  lemma HeadOfWithScore(a: seq<Scored>)
    requires a != []
    ensures WithScore(a, a[0].score) != [] && WithScore(a, a[0].score)[0] == a[0]
  {
    assert a == [a[0]] + a[1..];
    WithScoreCons(a[0], a[1..], a[0].score);
  }

  /** With equal first entries, the rests keep the same per-score orders. */
  lemma SameTails(a: seq<Scored>, b: seq<Scored>)
    requires a != [] && b != [] && a[0] == b[0]
    requires forall v :: WithScore(a, v) == WithScore(b, v)
    ensures forall v :: WithScore(a[1..], v) == WithScore(b[1..], v)
  {
    forall v ensures WithScore(a[1..], v) == WithScore(b[1..], v) {
      assert a == [a[0]] + a[1..] && b == [b[0]] + b[1..];
      WithScoreCons(a[0], a[1..], v);
      WithScoreCons(b[0], b[1..], v);
      var h := Keep(a[0], v);
      assert h + WithScore(a[1..], v) == h + WithScore(b[1..], v);
      assert (h + WithScore(a[1..], v))[|h|..] == WithScore(a[1..], v);
      assert (h + WithScore(b[1..], v))[|h|..] == WithScore(b[1..], v);
    }
  }

  lemma NonIncreasingTail(s: seq<Scored>)
    requires NonIncreasing(s) && s != []
    ensures NonIncreasing(s[1..])
  {
    forall i, j | 0 <= i < j < |s| - 1 ensures s[1..][i].score >= s[1..][j].score {
      assert s[1..][i] == s[i + 1] && s[1..][j] == s[j + 1];
    }
  }

  /** Any stable descending sort of `s` equals `SortByScore(s)`. */
  lemma SortByScoreIsTheStableSort(s: seq<Scored>, t: seq<Scored>)
    requires NonIncreasing(t)
    requires forall v :: WithScore(t, v) == WithScore(s, v)
    ensures t == SortByScore(s)
  {
    StableSortUnique(t, SortByScore(s));
  }

  // ---------------------------------------------------------------------
  // Top three and the combined context

  /** Cutting a sorted sequence after `n` entries: no dropped entry
      outscores the last kept one. */
  lemma SortedPrefixBound(sorted: seq<Scored>, n: nat)
    requires NonIncreasing(sorted) && n <= |sorted| && (n == 0 ==> sorted == [])
    ensures forall e: Scored | e in multiset(sorted[n..]) :: 0 < n && e.score <= sorted[n - 1].score
  {
    forall e: Scored | e in multiset(sorted[n..]) ensures 0 < n && e.score <= sorted[n - 1].score {
      assert e in sorted[n..];
      var j :| 0 <= j < |sorted[n..]| && sorted[n..][j] == e;
      assert sorted[n + j] == e;
    }
  }

  /** Cutting a sequence after `n` entries keeps the start of each per-score
      order. */
  lemma PrefixWithScore(s: seq<Scored>, n: nat)
    requires n <= |s|
    ensures forall v :: IsPrefix(WithScore(s[..n], v), WithScore(s, v))
  {
    forall v ensures IsPrefix(WithScore(s[..n], v), WithScore(s, v)) {
      assert s == s[..n] + s[n..];
      WithScoreConcat(s[..n], s[n..], v);
    }
  }

  /** Keeping the first `n` entries of a sorted sequence. */
  lemma TakeSorted(sorted: seq<Scored>, n: nat)
    requires NonIncreasing(sorted) && n <= |sorted| && (n == 0 ==> sorted == [])
    ensures NonIncreasing(sorted[..n])
    ensures multiset(sorted[..n]) <= multiset(sorted)
    ensures forall e: Scored | e in multiset(sorted) - multiset(sorted[..n]) :: 0 < n && e.score <= sorted[..n][n - 1].score
    ensures forall v :: IsPrefix(WithScore(sorted[..n], v), WithScore(sorted, v))
  {
    PrefixNonIncreasing(sorted, n);
    TakeSortedDropped(sorted, n);
    PrefixWithScore(sorted, n);
  }

  lemma PrefixNonIncreasing(s: seq<Scored>, n: nat)
    requires NonIncreasing(s) && n <= |s|
    ensures NonIncreasing(s[..n])
  {
    forall i, j | 0 <= i < j < n ensures s[..n][i].score >= s[..n][j].score {
      assert s[..n][i] == s[i] && s[..n][j] == s[j];
    }
  }

  /** What a cut leaves out is a sub-multiset outscored by the last kept
      entry. */
  lemma TakeSortedDropped(sorted: seq<Scored>, n: nat)
    requires NonIncreasing(sorted) && n <= |sorted| && (n == 0 ==> sorted == [])
    ensures multiset(sorted[..n]) <= multiset(sorted)
    ensures forall e: Scored | e in multiset(sorted) - multiset(sorted[..n]) :: 0 < n && e.score <= sorted[..n][n - 1].score
  {
    assert sorted == sorted[..n] + sorted[n..];
    assert multiset(sorted) - multiset(sorted[..n]) == multiset(sorted[n..]);
    SortedPrefixBound(sorted, n);
  }

  /** `sorted(relevant_websites, ...)[:3]`. */
  function TopThree(relevant: seq<Scored>): (top: seq<Scored>)
    ensures |top| == if |relevant| < TopCount then |relevant| else TopCount
    ensures NonIncreasing(top)
    ensures multiset(top) <= multiset(relevant)
    ensures forall e: Scored | e in multiset(relevant) - multiset(top) :: 0 < |top| && e.score <= top[|top| - 1].score
    ensures forall v :: IsPrefix(WithScore(top, v), WithScore(relevant, v))
  {
    var sorted := SortByScore(relevant);
    var n := if |relevant| < TopCount then |relevant| else TopCount;
    TakeSorted(sorted, n);
    sorted[..n]
  }

  predicate IsPrefix(p: seq<Scored>, s: seq<Scored>) {
    |p| <= |s| && s[..|p|] == p
  }

  function Summaries(top: seq<Scored>): (r: seq<string>)
    ensures |r| == |top| && forall k :: 0 <= k < |top| ==> r[k] == top[k].summary
  {
    seq(|top|, k requires 0 <= k < |top| => top[k].summary)
  }

  /** `"\n\n".join(...)` over the kept summaries: every summary in ranked
      order, verbatim, with a blank line between neighbours and nothing
      else; empty exactly when nothing was kept, as kept summaries are never
      empty. */
  function CombinedContent(top: seq<Scored>): (r: string)
    ensures JoinLayout(Summaries(top), "\n\n", r)
    ensures (forall k :: 0 <= k < |top| ==> top[k].summary != "") ==> (r == "" <==> top == [])
  {
    var parts := Summaries(top);
    JoinHasLayout(parts, "\n\n");
    Join(parts, "\n\n")
  }
}

=== FILE: scrape.dfy ===
/** `scrape_website` and `get_relevant_websites`. HTTP and HTML parsing are
    inputs: each search hit carries what fetching its page produced, either
    the page's extracted text (after `<script>`/`<style>` removal and
    `get_text()`) or the kind of exception raised. */
module Scrape {
  import opened Wrappers
  import opened PyStr

  /** A visible-text chunk of the scraped output. */
  predicate IsChunk(c: string) {
    c != [] && IsStripped(c) && !HasDoubleSpace(c) && NoLineBreak(c)
  }

  /** The chunks of one line's phrases, in order: each phrase stripped,
      empty ones dropped. The phrases joined back with double spaces are
      these chunks, verbatim and in order, with whitespace around them and
      a double space within every stretch between two of them. */
  function PhraseChunks(phrases: seq<string>): (r: seq<string>)
    requires forall k :: 0 <= k < |phrases| ==> !HasDoubleSpace(phrases[k]) && NoLineBreak(phrases[k])
    ensures forall k :: 0 <= k < |r| ==> IsChunk(r[k])
    ensures NonBlankAll(r) == NonBlankAll(phrases)
    ensures Woven(Join(phrases, "  "), r, PhraseGaps(phrases))
    decreases |phrases|
  {
    if phrases == [] then
      WovenBlank("");
      []
    else
      var head := PieceChunks(phrases[0]);
      var rest := PhraseChunks(phrases[1..]);
      PieceFacts(phrases[0]);
      ChunksConcat(head, rest);
      NonBlankAllConcat(head, rest);
      PhraseStep(phrases, rest);
      head + rest
  }

  /** What stripping leaves of one phrase: one chunk, or none. */
  function PieceChunks(p: string): seq<string> {
    if Strip(p) == [] then [] else [Strip(p)]
  }

  /** The whitespace around that chunk. */
  function PieceGaps(p: string): (g: seq<string>)
    ensures |g| == |PieceChunks(p)| + 1
  {
    if Strip(p) == [] then [p] else [Lead(p), Trail(p)]
  }

  /** The gaps around the chunks of phrases joined with double spaces. */
  function PhraseGaps(phrases: seq<string>): (g: seq<string>)
    ensures g != []
    decreases |phrases|
  {
    if phrases == [] then [""]
    else if |phrases| == 1 then PieceGaps(phrases[0])
    else Merge(PieceGaps(phrases[0]), "  ", PhraseGaps(phrases[1..]))
  }

  /** Stripping a phrase leaves a chunk, or nothing when it is blank. */
  lemma PieceFacts(p: string)
    requires !HasDoubleSpace(p) && NoLineBreak(p)
    ensures forall k :: 0 <= k < |PieceChunks(p)| ==> IsChunk(PieceChunks(p)[k])
    ensures NonBlankAll(PieceChunks(p)) == NonBlank(p)
  {
    StripNoDoubleSpace(p);
    StripNoLineBreak(p);
    StripVisible(p);
    if Strip(p) == [] {
      NonBlankEmpty(p);
    } else {
      assert [Strip(p)][1..] == [];
    }
  }

  lemma ChunksConcat(a: seq<string>, b: seq<string>)
    requires forall k :: 0 <= k < |a| ==> IsChunk(a[k])
    requires forall k :: 0 <= k < |b| ==> IsChunk(b[k])
    ensures forall k :: 0 <= k < |a + b| ==> IsChunk((a + b)[k])
  {
    forall k | |a| <= k < |a + b| ensures IsChunk((a + b)[k]) {
      assert (a + b)[k] == b[k - |a|];
    }
  }

  /** A phrase is its chunk, if any, with whitespace around it. */
  lemma PieceWoven(p: string)
    ensures Woven(p, PieceChunks(p), PieceGaps(p))
  {
    StripAround(p);
    if Strip(p) == [] {
      AllSpaceConcat(Lead(p), Trail(p));
      assert p == Lead(p) + Trail(p);
      WovenBlank(p);
    } else {
      WovenChunk(Lead(p), Strip(p), Trail(p));
    }
  }

  /** The first phrase's chunk in front of the chunks of the others. */
  lemma PhraseStep(phrases: seq<string>, rest: seq<string>)
    requires phrases != []
    requires Woven(Join(phrases[1..], "  "), rest, PhraseGaps(phrases[1..]))
    ensures Woven(Join(phrases, "  "), PieceChunks(phrases[0]) + rest, PhraseGaps(phrases))
  {
    var p := phrases[0];
    PieceWoven(p);
    if |phrases| == 1 {
      assert rest == [] && PieceChunks(p) + rest == PieceChunks(p);
    } else {
      var tail := Join(phrases[1..], "  ");
      assert Join(phrases, "  ") == p + "  " + tail;
      assert PhraseGaps(phrases) == Merge(PieceGaps(p), "  ", PhraseGaps(phrases[1..]));
      DoubleSpaceSeparates();
      WovenConcat(p, PieceChunks(p), PieceGaps(p), "  ", tail, rest, PhraseGaps(phrases[1..]));
    }
  }

  /** The whitespace before a string's stripped content. */
  function Lead(s: string): string {
    s[..StripStart(s)]
  }

  /** The whitespace after a string's stripped content. */
  function Trail(s: string): string {
    StripSlice(s);
    s[StripStart(s) + |Strip(s)|..]
  }

  lemma StripAround(s: string)
    ensures s == Lead(s) + Strip(s) + Trail(s)
    ensures AllSpace(Lead(s)) && AllSpace(Trail(s))
  {
    StripSlice(s);
    ThreeSlices(s, StripStart(s), StripStart(s) + |Strip(s)|);
  }

  /** The chunks of one line: stripped, split on double spaces, each phrase
      stripped and empty ones dropped. */
  function LineChunks(line: string): (r: seq<string>)
    requires NoLineBreak(line)
    ensures forall k :: 0 <= k < |r| ==> IsChunk(r[k])
    ensures NonBlankAll(r) == NonBlank(line)
  {
    StripNoLineBreak(line);
    StripVisible(line);
    PhraseChunks(SplitDoubleSpace(Strip(line)))
  }

  /** The gaps around the chunks of one line. */
  function LineGaps(line: string): (g: seq<string>)
    ensures g != []
  {
    FrontPad(Lead(line), BackPad(PhraseGaps(SplitDoubleSpace(Strip(line))), Trail(line)))
  }

  /** The line is its chunks, verbatim and in order, with whitespace
      around them and a double space within every stretch between two of
      them. */
  lemma LineWoven(line: string)
    requires NoLineBreak(line)
    ensures Woven(line, LineChunks(line), LineGaps(line))
  {
    StripNoLineBreak(line);
    StripAround(line);
    PadBoth(Lead(line), Strip(line), Trail(line), LineChunks(line), PhraseGaps(SplitDoubleSpace(Strip(line))));
  }

  /** The chunks of a sequence of lines, in order: each line's chunks, one
      line after the other. */
  function Chunks(lines: seq<string>): (r: seq<string>)
    requires forall k :: 0 <= k < |lines| ==> NoLineBreak(lines[k])
    ensures forall k :: 0 <= k < |r| ==> IsChunk(r[k])
    ensures NonBlankAll(r) == NonBlankAll(lines)
    decreases |lines|
  {
    if lines == [] then
      []
    else
      LinesTail(lines);
      var head := LineChunks(lines[0]);
      var rest := Chunks(lines[1..]);
      ChunksCons(lines, head, rest);
      head + rest
  }

  lemma LinesTail(lines: seq<string>)
    requires lines != [] && forall k :: 0 <= k < |lines| ==> NoLineBreak(lines[k])
    ensures NoLineBreak(lines[0]) && forall k :: 0 <= k < |lines[1..]| ==> NoLineBreak(lines[1..][k])
  {
    forall k | 0 <= k < |lines[1..]| ensures NoLineBreak(lines[1..][k]) {
      assert lines[1..][k] == lines[k + 1];
    }
  }

  /** The first line's chunks in front of the other lines' chunks keep
      what `Chunks` states. */
  lemma ChunksCons(lines: seq<string>, head: seq<string>, rest: seq<string>)
    requires lines != []
    requires forall k :: 0 <= k < |head| ==> IsChunk(head[k])
    requires forall k :: 0 <= k < |rest| ==> IsChunk(rest[k])
    requires NonBlankAll(head) == NonBlank(lines[0]) && NonBlankAll(rest) == NonBlankAll(lines[1..])
    ensures forall k :: 0 <= k < |head + rest| ==> IsChunk((head + rest)[k])
    ensures NonBlankAll(head + rest) == NonBlankAll(lines)
  {
    ChunksConcat(head, rest);
    NonBlankAllConcat(head, rest);
  }

  /** Whatever boundaries end the lines, the text they spell is their
      chunks, verbatim and in order, with whitespace around them and a line
      boundary or a double space within every stretch between two of
      them. */
  lemma {:induction false} ChunksWoven(lines: seq<string>)
    requires forall k :: 0 <= k < |lines| ==> NoLineBreak(lines[k])
    ensures forall ends | EndsFit(lines, ends) :: Woven(Unsplit(lines, ends), Chunks(lines), ChunkGaps(lines, ends))
    decreases |lines|
  {
    if lines == [] {
      WovenBlank("");
    } else {
      ChunksWoven(lines[1..]);
      LineWoven(lines[0]);
      ChunksAll(lines, LineChunks(lines[0]), Chunks(lines[1..]));
    }
  }

  /** The first line's chunks in front of the chunks of the other lines,
      for every choice of line boundaries. */
  lemma ChunksAll(lines: seq<string>, head: seq<string>, rest: seq<string>)
    requires lines != []
    requires Woven(lines[0], head, LineGaps(lines[0]))
    requires forall e | EndsFit(lines[1..], e) :: Woven(Unsplit(lines[1..], e), rest, ChunkGaps(lines[1..], e))
    ensures forall ends | EndsFit(lines, ends) :: Woven(Unsplit(lines, ends), head + rest, ChunkGaps(lines, ends))
  {
    forall ends | EndsFit(lines, ends) ensures Woven(Unsplit(lines, ends), head + rest, ChunkGaps(lines, ends)) {
      EndsFitTail(lines, ends);
      WovenAt(lines[1..], ends[1..], rest);
      ChunksStep(lines, ends, head, rest);
    }
  }

  /** The weave `Chunks` promises, at one choice of boundaries. */
  lemma WovenAt(lines: seq<string>, ends: seq<string>, r: seq<string>)
    requires EndsFit(lines, ends)
    requires forall e | EndsFit(lines, e) :: Woven(Unsplit(lines, e), r, ChunkGaps(lines, e))
    ensures Woven(Unsplit(lines, ends), r, ChunkGaps(lines, ends))
  {
  }

  /** The gaps around the chunks of lines ended by `ends`. */
  function ChunkGaps(lines: seq<string>, ends: seq<string>): (g: seq<string>)
    requires |lines| == |ends|
    ensures g != []
    decreases |lines|
  {
    if lines == [] then [""]
    else if |lines| == 1 then BackPad(LineGaps(lines[0]), ends[0])
    else Merge(LineGaps(lines[0]), ends[0], ChunkGaps(lines[1..], ends[1..]))
  }

  /** The first line's chunks in front of the chunks of the other lines. */
  lemma ChunksStep(lines: seq<string>, ends: seq<string>, head: seq<string>, rest: seq<string>)
    requires lines != [] && EndsFit(lines, ends) && EndsFit(lines[1..], ends[1..])
    requires Woven(lines[0], head, LineGaps(lines[0]))
    requires Woven(Unsplit(lines[1..], ends[1..]), rest, ChunkGaps(lines[1..], ends[1..]))
    ensures Woven(Unsplit(lines, ends), head + rest, ChunkGaps(lines, ends))
  {
    var tail := Unsplit(lines[1..], ends[1..]);
    assert Unsplit(lines, ends) == lines[0] + ends[0] + tail;
    if |lines| == 1 {
      assert tail == [] && rest == [] && head + rest == head;
      BoundaryOrNone(ends[0]);
      PadBack(lines[0], head, LineGaps(lines[0]), ends[0]);
      assert lines[0] + ends[0] + tail == lines[0] + ends[0];
    } else {
      BoundarySeparates(ends[0]);
      WovenConcat(lines[0], head, LineGaps(lines[0]), ends[0], tail, rest, ChunkGaps(lines[1..], ends[1..]));
    }
  }

  /** The lines after the first one keep their boundaries. */
  lemma EndsFitTail(lines: seq<string>, ends: seq<string>)
    requires lines != [] && EndsFit(lines, ends)
    ensures EndsFit(lines[1..], ends[1..])
  {
    forall k | 0 <= k < |ends[1..]| ensures IsBoundary(ends[1..][k]) || (k == |ends[1..]| - 1 && ends[1..][k] == []) {
      assert ends[1..][k] == ends[k + 1];
    }
  }

  /** The text normalisation of `scrape_website`: lines stripped, split on
      double spaces, phrases stripped, empty pieces dropped, the rest joined
      with newlines. The output keeps every visible character of the page
      in order; each of its newline-separated pieces is non-empty, has no
      surrounding whitespace and no double space; and the page text is
      those pieces, verbatim and in order, with whitespace around them and
      a line boundary or a double space within every stretch between two
      of them. */
  function Normalise(text: string): (r: string)
    ensures NonBlank(r) == NonBlank(text)
    ensures r != [] ==> var lines := Split(r, '\n'); forall k :: 0 <= k < |lines| ==> IsChunk(lines[k])
    ensures exists gaps :: Woven(text, Pieces(r), gaps)
  {
    var lines := SplitLines(text);
    var chunks := Chunks(lines);
    JoinNonBlank(chunks, "\n");
    ChunksWoven(lines);
    NormaliseWoven(text, chunks, ChunkGaps(lines, LineEnds(text)));
    if chunks != [] then
      ChunkLines(chunks);
      Join(chunks, "\n")
    else
      Join(chunks, "\n")
  }

  /** The newline-separated pieces of a normalised text; none for `""`. */
  function Pieces(r: string): seq<string> {
    if r == [] then [] else Split(r, '\n')
  }

  /** Joining chunks with newlines and splitting the result gives them back. */
  lemma NormaliseWoven(text: string, chunks: seq<string>, gaps: seq<string>)
    requires Woven(text, chunks, gaps)
    requires forall k :: 0 <= k < |chunks| ==> IsChunk(chunks[k])
    ensures Woven(text, Pieces(Join(chunks, "\n")), gaps)
  {
    if chunks != [] {
      ChunkLines(chunks);
      assert chunks[0] != [];
    }
  }

  /** Chunks joined with newlines split back into the same chunks. */
  lemma ChunkLines(chunks: seq<string>)
    requires chunks != [] && forall k :: 0 <= k < |chunks| ==> IsChunk(chunks[k])
    ensures Split(Join(chunks, "\n"), '\n') == chunks
  {
    forall k | 0 <= k < |chunks| ensures '\n' !in chunks[k] {
      assert NoLineBreak(chunks[k]);
    }
    SplitJoin(chunks, '\n');
  }

  // ---------------------------------------------------------------------
  // Where the chunks sit in the page text

  /** Whitespace that the normalisation turns into a newline: it holds a
      line boundary or a double space. */
  predicate Separating(g: string) {
    !NoLineBreak(g) || HasDoubleSpace(g)
  }

  /** `gaps[0] + chunks[0] + gaps[1] + ... + chunks[n - 1] + gaps[n]`. */
  function Weave(gaps: seq<string>, chunks: seq<string>): string
    requires |gaps| == |chunks| + 1
    decreases |chunks|
  {
    if chunks == [] then gaps[0] else gaps[0] + chunks[0] + Weave(gaps[1..], chunks[1..])
  }

  /** `text` is `chunks`, in order and verbatim, with nothing but
      whitespace around them and a separating stretch of whitespace between
      every two neighbours. */
  predicate Woven(text: string, chunks: seq<string>, gaps: seq<string>) {
    && |gaps| == |chunks| + 1
    && (forall k :: 0 <= k < |gaps| ==> AllSpace(gaps[k]))
    && (forall k :: 0 < k < |gaps| - 1 ==> Separating(gaps[k]))
    && Weave(gaps, chunks) == text
  }

  /** Whitespace alone holds no chunk. */
  lemma WovenBlank(w: string)
    requires AllSpace(w)
    ensures Woven(w, [], [w])
  {
  }

  /** One chunk with whitespace around it. */
  lemma WovenChunk(lead: string, c: string, trail: string)
    requires AllSpace(lead) && AllSpace(trail)
    ensures Woven(lead + c + trail, [c], [lead, trail])
  {
    assert [lead, trail][1..] == [trail];
  }

  lemma AllSpaceConcat(a: string, b: string)
    requires AllSpace(a) && AllSpace(b)
    ensures AllSpace(a + b)
  {
    forall i | 0 <= i < |a + b| ensures IsSpace((a + b)[i]) {
      if i >= |a| {
        assert (a + b)[i] == b[i - |a|];
      }
    }
  }

  /** A separating stretch stays separating with more whitespace around. */
  lemma SeparatingWithin(a: string, m: string, b: string)
    requires Separating(m)
    ensures Separating(a + m + b)
  {
    var t := a + m + b;
    if !NoLineBreak(m) {
      var i :| 0 <= i < |m| && IsLineBreak(m[i]);
      assert t[|a| + i] == m[i];
    } else {
      var i :| 0 <= i < |m| && DoubleSpaceAt(m, i);
      assert t[|a| + i] == m[i] && t[|a| + i + 1] == m[i + 1];
      assert DoubleSpaceAt(t, |a| + i);
    }
  }

  lemma DoubleSpaceSeparates()
    ensures AllSpace("  ") && Separating("  ")
  {
    assert DoubleSpaceAt("  ", 0);
  }

  /** A line boundary is separating whitespace. */
  lemma BoundarySeparates(b: string)
    requires IsBoundary(b)
    ensures AllSpace(b) && Separating(b)
  {
    assert IsLineBreak(b[0]);
  }

  lemma BoundaryOrNone(b: string)
    requires IsBoundary(b) || b == []
    ensures AllSpace(b)
  {
    if b != [] {
      BoundarySeparates(b);
    }
  }

  /** Whitespace on both sides of a weave. */
  lemma PadBoth(lead: string, text: string, trail: string, chunks: seq<string>, gaps: seq<string>)
    requires AllSpace(lead) && AllSpace(trail) && Woven(text, chunks, gaps)
    ensures Woven(lead + text + trail, chunks, FrontPad(lead, BackPad(gaps, trail)))
  {
    PadBack(text, chunks, gaps, trail);
    PadFront(lead, text + trail, chunks, BackPad(gaps, trail));
    assert lead + (text + trail) == lead + text + trail;
  }

  /** `gaps` with `w` in front of the first one. */
  function FrontPad(w: string, gaps: seq<string>): (g: seq<string>)
    requires gaps != []
    ensures |g| == |gaps|
  {
    [w + gaps[0]] + gaps[1..]
  }

  /** `gaps` with `w` after the last one. */
  function BackPad(gaps: seq<string>, w: string): (g: seq<string>)
    requires gaps != []
    ensures |g| == |gaps|
  {
    gaps[..|gaps| - 1] + [gaps[|gaps| - 1] + w]
  }

  /** Whitespace in front of a weave joins its first gap. */
  lemma PadFront(w: string, text: string, chunks: seq<string>, gaps: seq<string>)
    requires AllSpace(w) && Woven(text, chunks, gaps)
    ensures Woven(w + text, chunks, FrontPad(w, gaps))
  {
    var g := FrontPad(w, gaps);
    AllSpaceConcat(w, gaps[0]);
    WeaveFront(w, gaps, chunks);
    forall k | 0 < k < |g| ensures g[k] == gaps[k] {
    }
  }

  lemma WeaveFront(w: string, gaps: seq<string>, chunks: seq<string>)
    requires |gaps| == |chunks| + 1
    ensures Weave(FrontPad(w, gaps), chunks) == w + Weave(gaps, chunks)
  {
    var gs := FrontPad(w, gaps);
    assert gs[0] == w + gaps[0] && gs[1..] == gaps[1..];
    if chunks != [] {
      assert (w + gaps[0]) + chunks[0] + Weave(gaps[1..], chunks[1..]) == w + (gaps[0] + chunks[0] + Weave(gaps[1..], chunks[1..]));
    }
  }

  /** Whitespace after a weave joins its last gap. */
  lemma PadBack(text: string, chunks: seq<string>, gaps: seq<string>, w: string)
    requires AllSpace(w) && Woven(text, chunks, gaps)
    ensures Woven(text + w, chunks, BackPad(gaps, w))
  {
    var n := |gaps| - 1;
    var g := BackPad(gaps, w);
    AllSpaceConcat(gaps[n], w);
    WeaveBack(gaps, chunks, w);
    assert g[n] == gaps[n] + w;
    forall k | 0 <= k < n ensures g[k] == gaps[k] {
    }
  }

  lemma BackPadTail(gaps: seq<string>, w: string)
    requires |gaps| >= 2
    ensures BackPad(gaps, w)[0] == gaps[0] && BackPad(gaps, w)[1..] == BackPad(gaps[1..], w)
  {
    var n := |gaps| - 1;
    assert gaps[1..][..n - 1] == gaps[1..n] && gaps[1..][n - 1] == gaps[n];
    assert gaps[..n][1..] == gaps[1..n];
  }

  lemma {:induction false} WeaveBack(gaps: seq<string>, chunks: seq<string>, w: string)
    requires |gaps| == |chunks| + 1
    ensures Weave(BackPad(gaps, w), chunks) == Weave(gaps, chunks) + w
    decreases |chunks|
  {
    var gs := BackPad(gaps, w);
    if chunks == [] {
      assert gs == [gaps[0] + w];
    } else {
      WeaveBack(gaps[1..], chunks[1..], w);
      BackPadTail(gaps, w);
      assert gaps[0] + chunks[0] + (Weave(gaps[1..], chunks[1..]) + w) == (gaps[0] + chunks[0] + Weave(gaps[1..], chunks[1..])) + w;
    }
  }

  /** The gaps of two weaves put together around `sep`: the last gap of
      the first, `sep` and the first gap of the second become one. */
  function Merge(g1: seq<string>, sep: string, g2: seq<string>): (m: seq<string>)
    requires g1 != [] && g2 != []
    ensures |m| == |g1| + |g2| - 1
  {
    g1[..|g1| - 1] + [g1[|g1| - 1] + sep + g2[0]] + g2[1..]
  }

  /** Two weaves around separating whitespace make one weave of all their
      chunks. */
  lemma WovenConcat(t1: string, c1: seq<string>, g1: seq<string>, sep: string, t2: string, c2: seq<string>, g2: seq<string>)
    requires Woven(t1, c1, g1) && Woven(t2, c2, g2)
    requires AllSpace(sep) && Separating(sep)
    ensures Woven(t1 + sep + t2, c1 + c2, Merge(g1, sep, g2))
  {
    WeaveMerge(g1, c1, sep, g2, c2);
    MergeGaps(g1, sep, g2);
  }

  lemma MergeGaps(g1: seq<string>, sep: string, g2: seq<string>)
    requires g1 != [] && g2 != []
    requires forall k :: 0 <= k < |g1| ==> AllSpace(g1[k])
    requires forall k :: 0 < k < |g1| - 1 ==> Separating(g1[k])
    requires forall k :: 0 <= k < |g2| ==> AllSpace(g2[k])
    requires forall k :: 0 < k < |g2| - 1 ==> Separating(g2[k])
    requires AllSpace(sep) && Separating(sep)
    ensures var m := Merge(g1, sep, g2);
      && (forall k :: 0 <= k < |m| ==> AllSpace(m[k]))
      && (forall k :: 0 < k < |m| - 1 ==> Separating(m[k]))
  {
    var m := Merge(g1, sep, g2);
    var n := |g1| - 1;
    var mid := g1[n] + sep + g2[0];
    AllSpaceConcat(g1[n], sep);
    AllSpaceConcat(g1[n] + sep, g2[0]);
    SeparatingWithin(g1[n], sep, g2[0]);
    assert m[n] == mid;
    forall k | 0 <= k < n ensures m[k] == g1[k] {
    }
    forall k | n < k < |m| ensures m[k] == g2[k - n] {
    }
  }

  lemma {:induction false} WeaveMerge(g1: seq<string>, c1: seq<string>, sep: string, g2: seq<string>, c2: seq<string>)
    requires |g1| == |c1| + 1 && |g2| == |c2| + 1
    ensures Weave(Merge(g1, sep, g2), c1 + c2) == Weave(g1, c1) + sep + Weave(g2, c2)
    decreases |c1|
  {
    if c1 == [] {
      assert Merge(g1, sep, g2) == [g1[0] + sep + g2[0]] + g2[1..];
      assert c1 + c2 == c2;
      WeaveFront(g1[0] + sep, g2, c2);
      assert (g1[0] + sep) + g2[0] == g1[0] + sep + g2[0];
      assert (g1[0] + sep) + Weave(g2, c2) == g1[0] + sep + Weave(g2, c2);
    } else {
      var m := Merge(g1, sep, g2);
      WeaveMerge(g1[1..], c1[1..], sep, g2, c2);
      assert m[0] == g1[0] && m[1..] == Merge(g1[1..], sep, g2);
      assert (c1 + c2)[0] == c1[0] && (c1 + c2)[1..] == c1[1..] + c2;
      assert g1[0] + c1[0] + (Weave(g1[1..], c1[1..]) + sep + Weave(g2, c2))
        == (g1[0] + c1[0] + Weave(g1[1..], c1[1..])) + sep + Weave(g2, c2);
    }
  }

  /** What fetching and parsing one page produced. */
  datatype PageFetch =
    | Fetched(text: string)    // the text BeautifulSoup extracted
    | RequestFailed            // a `requests.RequestException`, 4xx/5xx statuses included
    | OtherFailure             // any other exception, which `scrape_website` does not catch

  /** `scrape_website`: the normalised text, `""` on a request failure, and
      no value when any other exception escapes. */
  function ScrapeWebsite(page: PageFetch): (r: Option<string>)
    ensures r.None? <==> page.OtherFailure?
    ensures page.RequestFailed? ==> r == Some("")
    ensures page.Fetched? ==> r == Some(Normalise(page.text))
    ensures page.Fetched? ==> r.Some? && NonBlank(r.value) == NonBlank(page.text)
  {
    match page
    case Fetched(text) => Some(Normalise(text))
    case RequestFailed => Some("")
    case OtherFailure => None
  }

  /** A candidate page: a search result with its scraped text. */
  datatype Website = Website(url: string, title: string, content: string)

  /** One search result and what fetching its URL produced. */
  datatype SearchHit = SearchHit(url: string, title: string, page: PageFetch)

  /** What the search call produced: its results in order, or an exception. */
  datatype SearchOutcome = Hits(results: seq<SearchHit>) | SearchFailed

  /** Some page raised an exception that `scrape_website` lets through. */
  predicate Escapes(hits: seq<SearchHit>) {
    exists i :: 0 <= i < |hits| && hits[i].page.OtherFailure?
  }

  /** The loop of `get_relevant_websites`: one website per hit, in order,
      unless a scrape raises. */
  function ScrapeHits(hits: seq<SearchHit>): (r: Option<seq<Website>>)
    ensures r.None? <==> Escapes(hits)
    ensures r.Some? ==> |r.value| == |hits|
    ensures r.Some? ==> forall i :: 0 <= i < |hits| ==>
      && r.value[i].url == hits[i].url
      && r.value[i].title == hits[i].title
      && ScrapeWebsite(hits[i].page) == Some(r.value[i].content)
    decreases |hits|
  {
    if hits == [] then Some([])
    else
      var h := hits[0];
      assert forall i :: 1 <= i < |hits| ==> hits[i] == hits[1..][i - 1];
      match ScrapeWebsite(h.page)
      case None => None
      case Some(content) =>
        match ScrapeHits(hits[1..])
        case None => None
        case Some(rest) => Some([Website(h.url, h.title, content)] + rest)
  }

  /** `get_relevant_websites`: the scraped results, or `[]` when the search
      fails or an exception escapes from scraping one of them. */
  function GetRelevantWebsites(search: SearchOutcome): (r: seq<Website>)
    ensures search.SearchFailed? ==> r == []
    ensures search.Hits? && Escapes(search.results) ==> r == []
    ensures search.Hits? && !Escapes(search.results) ==>
      && |r| == |search.results|
      && forall i :: 0 <= i < |r| ==>
        && r[i].url == search.results[i].url
        && r[i].title == search.results[i].title
        && ScrapeWebsite(search.results[i].page) == Some(r[i].content)
  {
    match search
    case SearchFailed => []
    case Hits(results) =>
      match ScrapeHits(results)
      case None => []
      case Some(websites) => websites
  }
}

=== FILE: summary.dfy ===
/** The summariser's post-processing: `clean_summary` and the guard of
    `generate_summary` that turns unusable model output into the sentinel
    `"IRRELEVANT"`. The chat service itself is an input: its reply or its
    failure. */
module Summary {
  import opened Wrappers
  import opened PyStr

  /** The marker for a page that is not worth ranking. */
  const Sentinel := "IRRELEVANT"

  /** The literal head of the pattern `^Here is a summary .*?:`. */
  const Preamble := "Here is a summary "

  /** Text that shows the model echoed the summarisation instruction. */
  const EchoPhrase := "summary of the text in about"

  /** Summaries shorter than this are treated as noise. */
  const MinLength := 20

  // ---------------------------------------------------------------------
  // clean_summary

  /** No colon and no newline: a stretch the lazy `.*?` runs across. */
  predicate NoStop(m: string) {
    forall j :: 0 <= j < |m| ==> m[j] != ':' && m[j] != '\n'
  }

  /** `s` begins with the preamble, letters compared case-insensitively. */
  predicate StartsWithPreamble(s: string) {
    |Preamble| <= |s| && Lower(s[..|Preamble|]) == Lower(Preamble)
  }

  /** The regular expression `^Here is a summary .*?:` (case-insensitive,
      `.` not matching a newline) matches `s[..k + 1]`: the preamble, then a
      stretch with no colon and no newline, then a colon. */
  predicate PreambleEndsAt(s: string, k: int) {
    && StartsWithPreamble(s)
    && |Preamble| <= k < |s|
    && s[k] == ':'
    && NoStop(s[|Preamble|..k])
  }

  /** Index of the first colon or newline of `t`, or `|t|` when there is
      none: where the lazy `.*?:` either succeeds or gives up. */
  function FindStop(t: string): (i: nat)
    ensures i <= |t| && NoStop(t[..i])
    ensures i < |t| ==> t[i] == ':' || t[i] == '\n'
    decreases |t|
  {
    if t == [] || t[0] == ':' || t[0] == '\n' then 0
    else
      var i := FindStop(t[1..]);
      assert t[..i + 1] == [t[0]] + t[1..][..i];
      i + 1
  }

  /** Where the text after a matched preamble starts, if the pattern matches. */
  function PreambleEnd(s: string): (e: Option<nat>)
    ensures e.Some? ==> 0 < e.value <= |s|
    ensures e.Some? ==> PreambleEndsAt(s, e.value - 1)
  {
    if !StartsWithPreamble(s) then None
    else
      var n := |Preamble|;
      var i := FindStop(s[n..]);
      assert s[n..][..i] == s[n..n + i];
      if n + i < |s| && s[n + i] == ':' then Some(n + i + 1) else None
  }

  /** How much of `s` the substitution removes: the match, or nothing. */
  function Cut(s: string): (d: nat)
    ensures d <= |s|
  {
    match PreambleEnd(s)
    case Some(e) => e
    case None => 0
  }

  /** Python's `clean_summary`: removes a leading "Here is a summary ...:"
      preamble, if there is one, then strips whitespace. */
  function CleanSummary(s: string): (r: string)
    ensures IsStripped(r)
    ensures !StartsWithPreamble(s) ==> r == Strip(s)
  {
    assert s[0..] == s;
    Strip(s[Cut(s)..])
  }

  /** The pattern matches at most one prefix: the colon it stops at is the
      first one after the preamble. */
  lemma PreambleEndUnique(s: string, k1: int, k2: int)
    requires PreambleEndsAt(s, k1) && PreambleEndsAt(s, k2)
    ensures k1 == k2
  {
    var n := |Preamble|;
    if k1 < k2 {
      NoStopAt(s[n..k2], k1 - n);
    } else if k2 < k1 {
      NoStopAt(s[n..k1], k2 - n);
    }
  }

  lemma NoStopAt(m: string, j: int)
    requires NoStop(m) && 0 <= j < |m|
    ensures m[j] != ':' && m[j] != '\n'
  {
  }

  /** What `PreambleEnd` finds is a match of the pattern. */
  lemma PreambleEndSound(s: string)
    ensures PreambleEnd(s).Some? ==> PreambleEndsAt(s, PreambleEnd(s).value - 1)
  {
    if StartsWithPreamble(s) {
      var n := |Preamble|;
      var i := FindStop(s[n..]);
      assert s[n..][..i] == s[n..n + i];
    }
  }

  /** `PreambleEnd` finds the match wherever there is one. */
  lemma PreambleEndFound(s: string, k: int)
    requires PreambleEndsAt(s, k)
    ensures PreambleEnd(s) == Some(k + 1)
  {
    var n, m := |Preamble|, k - |Preamble|;
    var t := s[n..];
    var i := FindStop(t);
    forall j | 0 <= j < m ensures t[j] != ':' && t[j] != '\n' {
      assert t[j] == s[n..k][j];
    }
    forall j | 0 <= j < i ensures t[j] != ':' && t[j] != '\n' {
      assert t[j] == t[..i][j];
    }
    assert t[m] == ':';
  }

  /** When the pattern matches up to the colon at `k`, exactly that prefix is
      removed before stripping. */
  lemma CleanSummaryRemovesMatch(s: string, k: nat)
    requires PreambleEndsAt(s, k)
    ensures CleanSummary(s) == Strip(s[k + 1..])
  {
    CutAt(s, k);
    CleanSummaryAt(s, k);
  }

  lemma CleanSummaryAt(s: string, k: nat)
    requires Cut(s) == k + 1
    ensures CleanSummary(s) == Strip(s[k + 1..])
  {
  }

  lemma CutAt(s: string, k: nat)
    requires PreambleEndsAt(s, k)
    ensures Cut(s) == k + 1
  {
    PreambleEndFound(s, k);
  }

  /** When the pattern does not match, the input is only stripped. */
  lemma CleanSummaryNoMatch(s: string)
    requires forall k :: !PreambleEndsAt(s, k)
    ensures CleanSummary(s) == Strip(s)
  {
    PreambleEndSound(s);
    assert s[0..] == s;
  }

  /** Only a leading stretch of `s` is ever removed: the visible text of the
      result is a suffix of the visible text of the input. */
  lemma CleanSummaryKeepsTail(s: string)
    ensures exists d :: 0 <= d <= |s| && NonBlank(CleanSummary(s)) == NonBlank(s[d..])
  {
    StripVisible(s[Cut(s)..]);
  }

  /** Where the pattern stops in a string made of the preamble, a stretch with
      no colon or newline, a colon and the rest. */
  lemma PreambleAt(s: string, middle: string, rest: string)
    requires s == Preamble + middle + ":" + rest
    requires NoStop(middle)
    ensures PreambleEndsAt(s, |Preamble| + |middle|)
  {
    var n := |Preamble|;
    assert s == Preamble + (middle + ":" + rest);
    PrefixOfConcat(Preamble, middle + ":" + rest);
    assert s[..n] == Preamble;
    assert s[n..n + |middle|] == middle;
    assert s[n + |middle|] == ':';
  }

  /** The pattern matches the preamble, any stretch without a colon or a
      newline, and the colon after it; what follows is kept, stripped. */
  lemma CleanSummaryDropsPreamble(middle: string, rest: string)
    requires NoStop(middle)
    ensures CleanSummary(Preamble + middle + ":" + rest) == Strip(rest)
  {
    var s := Preamble + middle + ":" + rest;
    PreambleAt(s, middle, rest);
    CleanSummaryRemovesMatch(s, |Preamble| + |middle|);
    assert s[|Preamble| + |middle| + 1..] == rest;
  }

  /** The scenario of a model that ignored the "no intro phrase"
      instruction: the preamble up to its colon goes, and so does the
      padding after it. */
  lemma CleanSummaryExample()
    ensures CleanSummary("Here is a summary of the key points:  Widgets are great.") == "Widgets are great."
  {
    ExampleParts();
    StripPadded("  ", "Widgets are great.");
    CleanSummaryDropsPreamble("of the key points", "  " + "Widgets are great.");
    ExampleSpelled();
  }

  /** The example reply, spelled as one literal, is the preamble, the
      stretch before the colon, the colon and the padded sentence. */
  lemma ExampleSpelled()
    ensures "Here is a summary of the key points:  Widgets are great."
      == Preamble + "of the key points" + ":" + ("  " + "Widgets are great.")
  {
  }

  /** The pieces of that scenario: a stretch without colon or newline, and
      a text with nothing to strip. */
  lemma ExampleParts()
    ensures NoStop("of the key points")
    ensures IsStripped("Widgets are great.")
  {
    var text := "Widgets are great.";
    assert text[0] == 'W' && text[|text| - 1] == '.';
  }

  /** `clean_summary` is not idempotent: a second preamble left behind by the
      first application is removed by the second. With `a == "A"`,
      `b == "B"` and `x == "x"` the input is
      "Here is a summary A: Here is a summary B: x". */
  lemma CleanSummaryNotIdempotent(a: string, b: string, x: string)
    requires NoStop(a) && NoStop(b) && x != [] && IsStripped(x)
    ensures var once := Preamble + b + ":" + (" " + x);
      && CleanSummary(Preamble + a + ":" + (" " + once)) == once
      && CleanSummary(once) == x
      && CleanSummary(CleanSummary(Preamble + a + ":" + (" " + once))) != CleanSummary(Preamble + a + ":" + (" " + once))
  {
    var once := Preamble + b + ":" + (" " + x);
    assert once[0] == 'H' && once[|once| - 1] == x[|x| - 1];
    StripPadded(" ", once);
    StripPadded(" ", x);
    CleanSummaryDropsPreamble(a, " " + once);
    CleanSummaryDropsPreamble(b, " " + x);
  }

  /** A second application changes nothing unless the first one left a
      preamble at the front. */
  lemma CleanSummaryStable(s: string)
    requires !StartsWithPreamble(CleanSummary(s))
    ensures CleanSummary(CleanSummary(s)) == CleanSummary(s)
  {
  }

  // ---------------------------------------------------------------------
  // generate_summary

  /** What the summarisation chat call produced: the reply text, or an
      exception of any kind. */
  datatype ChatReply = Replied(text: string) | CallFailed

  /** The model's reply after stripping and `clean_summary`. */
  function Cleaned(text: string): (r: string)
    ensures IsStripped(r)
    ensures !StartsWithPreamble(Strip(text)) ==> r == Strip(text)
  {
    CleanSummary(Strip(text))
  }

  /** The lower-cased text contains the instruction the model was given:
      some index of it starts a copy of the instruction's phrase. */
  predicate EchoesPrompt(s: string): (b: bool)
    ensures b <==> exists i :: OccursAt(Lower(s), EchoPhrase, i)
  {
    Contains(Lower(s), EchoPhrase)
  }

  /** The guard of `generate_summary`: the cleaned reply when it is long
      enough and does not echo the prompt, the sentinel otherwise and on any
      failure of the call. */
  function GenerateSummary(reply: ChatReply): (r: string)
    ensures r == Sentinel || (reply.Replied? && r == Cleaned(reply.text))
    ensures r != Sentinel ==> |r| >= MinLength && !EchoesPrompt(r)
    ensures reply.CallFailed? ==> r == Sentinel
    ensures reply.Replied? && |Cleaned(reply.text)| >= MinLength && !EchoesPrompt(Cleaned(reply.text))
      ==> r == Cleaned(reply.text)
    ensures IsStripped(r)
  {
    assert IsStripped(Sentinel) by {
      assert Sentinel[0] == 'I' && Sentinel[|Sentinel| - 1] == 'T';
    }
    match reply
    case CallFailed => Sentinel
    case Replied(text) =>
      var summary := Cleaned(text);
      if EchoesPrompt(summary) then Sentinel
      else if |summary| < MinLength then Sentinel
      else summary
  }

  /** The sentinel comes back exactly when the call failed, the cleaned reply
      is too short, or it echoes the prompt; a usable reply can never be
      mistaken for the sentinel. */
  lemma SentinelExactlyWhenRejected(reply: ChatReply)
    ensures GenerateSummary(reply) == Sentinel <==>
      (reply.CallFailed? || |Cleaned(reply.text)| < MinLength || EchoesPrompt(Cleaned(reply.text)))
  {
    assert |Sentinel| < MinLength;
  }
}

=== FILE: synthesis.dfy ===
/** `generate_llm_response`: up to `max_retries` chat-completion calls,
    switching to the next API key after a rate-limit error, retrying after
    any other error, and giving up with an apology when the last attempt
    fails for another reason. Each call's outcome is an input. */
module Synthesis {
  import opened Wrappers
  import opened PyStr
  import opened KeyPool

  /** The default of `max_retries`. */
  const DefaultRetries := 3

  /** The reply given up with when the last attempt fails. */
  const ApologyText := "Sorry, I couldn't generate a response due to an error."

  /** The text by which an error message is recognised as a rate limit. */
  const RateLimitMarker := "rate_limit_exceeded"

  /** What one chat-completion call produced: the message content, or an
      exception with its message. */
  datatype Attempt = Completed(content: string) | Raised(error: string)

  predicate IsRateLimited(a: Attempt): (b: bool)
    ensures b <==> a.Raised? && exists i :: OccursAt(a.error, RateLimitMarker, i)
  {
    a.Raised? && Contains(a.error, RateLimitMarker)
  }

  /** How many attempts failed with a rate-limit error. */
  function CountRateLimited(s: seq<Attempt>): nat
    decreases |s|
  {
    if s == [] then 0 else (if IsRateLimited(s[0]) then 1 else 0) + CountRateLimited(s[1..])
  }

  /** How `generate_llm_response` ends: with the content of a completed
      call, with the apology, or with nothing at all when its loop runs
      out. */
  datatype Response = Answer(content: string) | Apology | NoResponse

  /** The Python value returned: an answer comes back stripped. */
  function ResponseValue(r: Response): (v: Option<string>)
    ensures v.None? <==> r.NoResponse?
    ensures r.Apology? ==> v == Some(ApologyText)
    ensures r.Answer? ==> v.Some? && IsStripped(v.value) && NonBlank(v.value) == NonBlank(r.content)
  {
    match r
    case Answer(content) => StripVisible(content); Some(Strip(content))
    case Apology => Some(ApologyText)
    case NoResponse => None
  }

  /** The user message sent on every attempt. */
  function FullPrompt(context: string, prompt: string): (r: string)
    ensures |r| == |context| + |prompt| + 30
    ensures r[..9] == "Context: " && r[9..9 + |context|] == context
    ensures r[|r| - 9..] == "\n\nAnswer:" && r[|r| - 9 - |prompt|..|r| - 9] == prompt
    ensures r[9 + |context|..|r| - 9 - |prompt|] == "\n\nQuestion: "
  {
    "Context: " + context + "\n\nQuestion: " + prompt + "\n\nAnswer:"
  }

  /** The result of the loop, the key ring it leaves behind and how many
      calls it made. */
  datatype Run<K> = Run(response: Response, ring: Ring<K>, calls: nat)

  /** The loop of `generate_llm_response` from iteration `attempt` on, where
      `outcomes[i]` is what the call of iteration `i` produces. */
  function RetryFrom<K>(ring: Ring<K>, outcomes: seq<Attempt>, attempt: nat, maxRetries: nat): (run: Run<K>)
    requires Valid(ring) && attempt <= maxRetries <= |outcomes|
    ensures Valid(run.ring) && run.ring.keys == ring.keys
    ensures attempt <= run.calls <= maxRetries
    decreases maxRetries - attempt
  {
    if attempt == maxRetries then Run(NoResponse, ring, attempt)
    else
      match outcomes[attempt]
      case Completed(content) => Run(Answer(content), ring, attempt + 1)
      case Raised(_) =>
        if IsRateLimited(outcomes[attempt]) then RetryFrom(SwitchKey(ring), outcomes, attempt + 1, maxRetries)
        else if attempt == maxRetries - 1 then Run(Apology, ring, attempt + 1)
        else RetryFrom(ring, outcomes, attempt + 1, maxRetries)
  }

  /** The key is switched once per rate-limit error among the calls made,
      and never otherwise. */
  lemma {:induction false} RetryRotations<K>(ring: Ring<K>, outcomes: seq<Attempt>, attempt: nat, maxRetries: nat)
    requires Valid(ring) && attempt <= maxRetries <= |outcomes|
    ensures var run := RetryFrom(ring, outcomes, attempt, maxRetries);
      run.ring == Rotate(ring, CountRateLimited(outcomes[attempt..run.calls]))
    decreases maxRetries - attempt
  {
    var run := RetryFrom(ring, outcomes, attempt, maxRetries);
    if attempt == maxRetries {
      assert run == Run(NoResponse, ring, attempt);
      assert outcomes[attempt..run.calls] == [];
    } else if outcomes[attempt].Raised? && IsRateLimited(outcomes[attempt]) {
      var next := SwitchKey(ring);
      assert run == RetryFrom(next, outcomes, attempt + 1, maxRetries);
      RetryRotations(next, outcomes, attempt + 1, maxRetries);
      CountFirst(outcomes, attempt, run.calls);
    } else if outcomes[attempt].Raised? && attempt < maxRetries - 1 {
      assert run == RetryFrom(ring, outcomes, attempt + 1, maxRetries);
      RetryRotations(ring, outcomes, attempt + 1, maxRetries);
      CountFirst(outcomes, attempt, run.calls);
    } else {
      assert run.calls == attempt + 1 && run.ring == ring;
      CountFirst(outcomes, attempt, run.calls);
      assert outcomes[attempt + 1..run.calls] == [];
    }
  }

  /** Every call but the last one made raised. */
  lemma {:induction false} RetryRaisedBefore<K>(ring: Ring<K>, outcomes: seq<Attempt>, attempt: nat, maxRetries: nat)
    requires Valid(ring) && attempt <= maxRetries <= |outcomes|
    ensures var run := RetryFrom(ring, outcomes, attempt, maxRetries);
      forall k :: attempt <= k < run.calls - 1 ==> outcomes[k].Raised?
    decreases maxRetries - attempt
  {
    if attempt < maxRetries && outcomes[attempt].Raised? {
      var run := RetryFrom(ring, outcomes, attempt, maxRetries);
      if IsRateLimited(outcomes[attempt]) {
        var next := SwitchKey(ring);
        assert run == RetryFrom(next, outcomes, attempt + 1, maxRetries);
        RetryRaisedBefore(next, outcomes, attempt + 1, maxRetries);
      } else if attempt < maxRetries - 1 {
        assert run == RetryFrom(ring, outcomes, attempt + 1, maxRetries);
        RetryRaisedBefore(ring, outcomes, attempt + 1, maxRetries);
      }
    }
  }

  /** The loop answers exactly when its last call completed, with that
      call's content; it stops before `maxRetries` calls only
      with an answer. */
  lemma {:induction false} RetryAnswers<K>(ring: Ring<K>, outcomes: seq<Attempt>, attempt: nat, maxRetries: nat)
    requires Valid(ring) && attempt <= maxRetries <= |outcomes|
    ensures var run := RetryFrom(ring, outcomes, attempt, maxRetries);
      && (run.response.Answer? <==> attempt < run.calls && outcomes[run.calls - 1].Completed?)
      && (run.response.Answer? ==> run.response.content == outcomes[run.calls - 1].content)
      && (run.calls < maxRetries ==> run.response.Answer?)
    decreases maxRetries - attempt
  {
    var run := RetryFrom(ring, outcomes, attempt, maxRetries);
    if attempt == maxRetries {
      assert run == Run(NoResponse, ring, attempt);
    } else if outcomes[attempt].Completed? {
      assert run == Run(Answer(outcomes[attempt].content), ring, attempt + 1);
    } else if IsRateLimited(outcomes[attempt]) {
      var next := SwitchKey(ring);
      assert run == RetryFrom(next, outcomes, attempt + 1, maxRetries);
      RetryAnswers(next, outcomes, attempt + 1, maxRetries);
    } else if attempt == maxRetries - 1 {
      assert run == Run(Apology, ring, attempt + 1);
    } else {
      assert run == RetryFrom(ring, outcomes, attempt + 1, maxRetries);
      RetryAnswers(ring, outcomes, attempt + 1, maxRetries);
    }
  }

  /** The apology comes exactly when the last permitted call fails for
      another reason than a rate limit, and no value exactly when that call
      is rate limited or no call is permitted at all. */
  lemma {:induction false} RetryGivesUp<K>(ring: Ring<K>, outcomes: seq<Attempt>, attempt: nat, maxRetries: nat)
    requires Valid(ring) && attempt <= maxRetries <= |outcomes|
    ensures var run := RetryFrom(ring, outcomes, attempt, maxRetries);
      && (run.response.Apology? <==>
            attempt < run.calls == maxRetries && outcomes[maxRetries - 1].Raised? && !IsRateLimited(outcomes[maxRetries - 1]))
      && (run.response.NoResponse? <==>
            run.calls == maxRetries && (attempt == maxRetries || IsRateLimited(outcomes[maxRetries - 1])))
    decreases maxRetries - attempt
  {
    if attempt < maxRetries && outcomes[attempt].Raised? {
      var run := RetryFrom(ring, outcomes, attempt, maxRetries);
      if IsRateLimited(outcomes[attempt]) {
        var next := SwitchKey(ring);
        assert run == RetryFrom(next, outcomes, attempt + 1, maxRetries);
        RetryGivesUp(next, outcomes, attempt + 1, maxRetries);
      } else if attempt < maxRetries - 1 {
        assert run == RetryFrom(ring, outcomes, attempt + 1, maxRetries);
        RetryGivesUp(ring, outcomes, attempt + 1, maxRetries);
      }
    }
  }

  /** Counting from `i` is counting attempt `i` and then the rest. */
  lemma CountFirst(s: seq<Attempt>, i: nat, j: nat)
    requires i < j <= |s|
    ensures CountRateLimited(s[i..j]) == (if IsRateLimited(s[i]) then 1 else 0) + CountRateLimited(s[i + 1..j])
  {
    assert s[i..j][0] == s[i];
    assert s[i..j][1..] == s[i + 1..j];
  }

  /** `generate_llm_response(prompt, context, max_retries)` with the key
      ring it starts from. */
  function GenerateLlmResponse<K>(ring: Ring<K>, outcomes: seq<Attempt>, maxRetries: nat): (run: Run<K>)
    requires Valid(ring) && maxRetries <= |outcomes|
    ensures Valid(run.ring) && run.ring.keys == ring.keys
    ensures run.calls <= maxRetries
    ensures run.ring.current == (ring.current + CountRateLimited(outcomes[..run.calls])) % |ring.keys|
  {
    var run := RetryFrom(ring, outcomes, 0, maxRetries);
    RetryRotations(ring, outcomes, 0, maxRetries);
    RotateIndex(ring, CountRateLimited(outcomes[0..run.calls]));
    assert outcomes[0..run.calls] == outcomes[..run.calls];
    run
  }

  /** The loop returns the first successful answer, stripped, after exactly
      as many key switches as there were rate-limit errors before it; an
      error that is not a rate limit leaves the key alone. */
  lemma FirstSuccess<K>(ring: Ring<K>, outcomes: seq<Attempt>, maxRetries: nat, k: nat)
    requires Valid(ring) && k < maxRetries <= |outcomes|
    requires outcomes[k].Completed? && forall j :: 0 <= j < k ==> outcomes[j].Raised?
    ensures var run := GenerateLlmResponse(ring, outcomes, maxRetries);
      && ResponseValue(run.response) == Some(Strip(outcomes[k].content))
      && run.calls == k + 1
      && run.ring.current == (ring.current + CountRateLimited(outcomes[..k])) % |ring.keys|
  {
    var run := GenerateLlmResponse(ring, outcomes, maxRetries);
    assert run == RetryFrom(ring, outcomes, 0, maxRetries);
    SuccessCalls(ring, outcomes, maxRetries, k);
    RetryAnswers(ring, outcomes, 0, maxRetries);
    assert run.response == Answer(outcomes[k].content);
    CountPrefix(outcomes, k);
  }

  /** The call that succeeds first is the last one made. */
  lemma SuccessCalls<K>(ring: Ring<K>, outcomes: seq<Attempt>, maxRetries: nat, k: nat)
    requires Valid(ring) && k < maxRetries <= |outcomes|
    requires outcomes[k].Completed? && forall j :: 0 <= j < k ==> outcomes[j].Raised?
    ensures RetryFrom(ring, outcomes, 0, maxRetries).calls == k + 1
  {
    RetryRaisedBefore(ring, outcomes, 0, maxRetries);
    RetryAnswers(ring, outcomes, 0, maxRetries);
  }

  /** Counting the attempts up to a success is counting those before it. */
  lemma CountPrefix(s: seq<Attempt>, k: nat)
    requires k < |s| && s[k].Completed?
    ensures CountRateLimited(s[..k + 1]) == CountRateLimited(s[..k])
  {
    CountConcat(s[..k], [s[k]]);
    assert s[..k + 1] == s[..k] + [s[k]];
    assert [s[k]][1..] == [];
  }

  lemma {:induction false} CountConcat(a: seq<Attempt>, b: seq<Attempt>)
    ensures CountRateLimited(a + b) == CountRateLimited(a) + CountRateLimited(b)
    decreases |a|
  {
    if a == [] {
      assert a + b == b;
    } else {
      assert (a + b)[1..] == a[1..] + b;
      CountConcat(a[1..], b);
    }
  }

  /** When every attempt fails, all of them are made; the last one decides
      between the apology and no value at all, and the key has moved once
      per rate-limit error. */
  lemma AllFail<K>(ring: Ring<K>, outcomes: seq<Attempt>, maxRetries: nat)
    requires Valid(ring) && 0 < maxRetries <= |outcomes|
    requires forall j :: 0 <= j < maxRetries ==> outcomes[j].Raised?
    ensures var run := GenerateLlmResponse(ring, outcomes, maxRetries);
      && run.calls == maxRetries
      && (run.response == if IsRateLimited(outcomes[maxRetries - 1]) then NoResponse else Apology)
      && run.ring.current == (ring.current + CountRateLimited(outcomes[..maxRetries])) % |ring.keys|
  {
    RetryAnswers(ring, outcomes, 0, maxRetries);
    RetryGivesUp(ring, outcomes, 0, maxRetries);
  }

  /** Two rate-limit errors and then an answer, with the default three
      retries: the third answer comes back stripped and the cursor has
      moved two keys on. */
  lemma RateLimitedTwiceThenAnswered<K>(ring: Ring<K>, outcomes: seq<Attempt>, text: string)
    requires Valid(ring)
    requires |outcomes| == 3 && IsRateLimited(outcomes[0]) && IsRateLimited(outcomes[1]) && outcomes[2] == Completed(text)
    ensures var run := GenerateLlmResponse(ring, outcomes, DefaultRetries);
      && ResponseValue(run.response) == Some(Strip(text))
      && run.ring.current == (ring.current + 2) % |ring.keys|
  {
    FirstSuccess(ring, outcomes, DefaultRetries, 2);
    CountTwo(outcomes);
  }

  /** Two rate-limit errors in front count two. */
  lemma CountTwo(s: seq<Attempt>)
    requires |s| >= 2 && IsRateLimited(s[0]) && IsRateLimited(s[1])
    ensures CountRateLimited(s[..2]) == 2
  {
    var two := s[..2];
    assert two[0] == s[0] && two[1] == s[1];
    CountAllRateLimited(two);
  }

  /** A run of rate-limit errors counts its own length. */
  lemma {:induction false} CountAllRateLimited(s: seq<Attempt>)
    requires forall i :: 0 <= i < |s| ==> IsRateLimited(s[i])
    ensures CountRateLimited(s) == |s|
    decreases |s|
  {
    if s != [] {
      assert IsRateLimited(s[0]);
      CountAllRateLimited(s[1..]);
    }
  }

  /** Three failures of which the last is a rate limit: the function ends
      without returning a value, however the first two failed. */
  lemma RateLimitedLastGivesNothing<K>(ring: Ring<K>, outcomes: seq<Attempt>)
    requires Valid(ring)
    requires |outcomes| == 3 && outcomes[0].Raised? && outcomes[1].Raised? && IsRateLimited(outcomes[2])
    ensures ResponseValue(GenerateLlmResponse(ring, outcomes, DefaultRetries).response) == None
  {
    AllFail(ring, outcomes, DefaultRetries);
  }

  /** Three failures of which the last is not a rate limit: the apology. */
  lemma OtherErrorLastApologises<K>(ring: Ring<K>, outcomes: seq<Attempt>)
    requires Valid(ring)
    requires |outcomes| == 3 && outcomes[0].Raised? && outcomes[1].Raised? && outcomes[2].Raised?
    requires !IsRateLimited(outcomes[2])
    ensures ResponseValue(GenerateLlmResponse(ring, outcomes, DefaultRetries).response) == Some(ApologyText)
  {
    AllFail(ring, outcomes, DefaultRetries);
  }
}

=== FILE: wrappers.dfy ===
/** The optional value used where the Python code returns `None` or lets an
    exception escape instead of returning a value. */
module Wrappers {

  datatype Option<+T> = None | Some(value: T)
}
